=== FILE: README.md ===
# dockerimp — a Dafny model of the Ansible container module

This project models the core of `dockerimp`, an Ansible module that drives a
container engine towards a desired state (`present`, `running`,
`running_latest`, `stopped`, `absent`, `restarted`, and the image states
`image_present`, `image_latest` and `image_absent`). It also models the earlier
`docker.py` module it grew from, and the port-parameter parser
`parse_port_params` of `dockerimpimp.py`.

The model has these parts:

- **Parameter normalisation** (`Normalize`, `LegacyNormalize`, `PortParser`).
  `fix_parameters` turns the user's `volumes`, `image`, `ports` and `env` into
  what the engine needs:
  - volumes become binds and mount points;
  - an image without a tag gets `:latest`;
  - ports become exposed ports and bindings;
  - the environment gets an `ANSIBLE_MANAGED_ENVS` marker entry.
- **Python helpers** (`PyStr`, `PyDict`). Python's `str.split` and
  `str.join` are modelled with their edge cases, and so is "the last
  assignment to a dict key wins". The normalisation proofs are stated in
  these terms.
- **The engine** (`Engine`, `ChangeLog`). The engine is a value: the
  containers it lists, in listing order; the image references it holds
  locally; and the image each reference would fetch from the registry. Stop,
  start, create, remove, pull and remove-image are functions from one engine
  value to the next. The change log is the list of actions a run performed.
- **Finding a container** (`Lookup`). dockerimp matches on the name or on an
  id prefix, and more than one match is an error. docker.py matches on the
  name or the full id, searches running containers first, and takes the
  first match.
- **Compliance** (`Compliance`). `ensure_same` decides whether an existing
  container already matches the parameters or must be recreated. It checks
  the image reference, the managed environment, the host binds and the
  command.
- **Recipes** (`Recipes`, `LegacyRecipes`). These are the `ensure_*` state
  recipes, `restart`, and the module entry point that dispatches on `state`
  and reports `changed` and a message.

Each recipe threads a `Run` value through the engine calls. A `Run` is the
engine plus the change log. Uncaught Python exceptions become
`Crash("IndexError" | "TypeError" | "NameError")`. The module's own
`ContainerManagerException` errors become the other `Failure` constructors.

The main properties proved:

- **Idempotence:**
  - `running` is idempotent when the environment is self-consistent: no
    entry mentions `ANSIBLE_MANAGED_ENVS` and no key holds `:`. A second run
    of the whole module then reports "up to date".
  - `running_latest` is idempotent under the same condition.
  - `present` is idempotent when no volumes are requested and the
    environment is self-consistent.
  - The corrected `absent` is idempotent, and so is `stopped`.
  - In docker.py, `present` and `running` without `latest_image` are
    idempotent, and `absent` is idempotent when at most one container
    carries the name.
- **Recreation:** with volumes, a freshly created container never passes
  `ensure_same`, so `present` recreates it on every run. An environment key
  that holds `:` can also make every run recreate the container. This is
  proved for the concrete parameter `env="A:B=1"` only
  (`Compliance.ColonKeyNeverComplies`), not for every such key.
- **Self-compliance:** a container created from self-consistent parameters
  passes `ensure_same` once started with its binds. This follows from a
  round trip through the environment marker.
- **Change logs:** the recipes only append to the log. `stopped` and
  `absent` log exactly the stops and removals they perform, `image_present`
  and `image_latest` log exactly the pulls they perform, and
  `running` and `running_latest` leave the log unchanged exactly when the
  found container already runs and complies.
- **Reporting:** the module's outcome is the dispatched recipe's failure, or
  `changed` exactly when the recipe logged something, with the log as the
  message.
- **Normalisation round trips and last-write-wins:**
  - a bind rendered to `host:path:ro|rw` parses back to itself;
  - the tag defaulting is idempotent;
  - for both binds and port bindings, the key set is exactly the keys the
    entries name, and a later entry for the same key wins.
- **Lookup:** the found container is the only match. The name finds the same
  container after a stop or start, finds the new container after a create,
  and finds nothing after a removal.

## Model

| member | source | states |
|---|---|---|
| Normalize.Entries | dockerimp.py:105-112 | a string parameter is split on commas and a list is used as given; any other type is an invalid-argument error for that parameter |
| Normalize.ParseVolume | dockerimp.py:116-130 | an entry is accepted exactly when it has two `:`-fields, or three with mode `ro` or `rw`; the bind is read-only exactly when the mode is `ro`; anything else is an invalid `volumes` argument |
| Normalize.VolumeFieldCount | dockerimp.py:116-130 | an entry with no `:` or with more than two `:` is rejected |
| Normalize.VolumeRoundTrip | dockerimp.py:116-130 | parsing the `host:path:ro|rw` string that the compliance check renders for a bind gives back the same host and bind |
| Normalize.NormalizeVolumes | dockerimp.py:105-135 | succeeds exactly when every entry parses; the mount points are the entries' container paths, in order |
| Normalize.VolumeBindKeys | dockerimp.py:116-131 | the bind map's keys are exactly the host paths the entries name |
| Normalize.VolumeBindLastWins | dockerimp.py:116-131 | when a host path is named twice, the later entry's bind is the one kept |
| Normalize.TagRule | dockerimp.py:140-141 | the source's test (split the last `/`-segment on `:`) holds exactly when some `:` comes after the last `/` |
| Normalize.DefaultTag | dockerimp.py:137-142 | a reference without a tag gets `:latest` appended; a tagged one is unchanged |
| Normalize.DefaultTagTags | dockerimp.py:137-142 | after defaulting, every reference carries a tag |
| Normalize.DefaultTagIdempotent | dockerimp.py:137-142 | defaulting twice is the same as defaulting once |
| Normalize.ParsePort | dockerimp.py:154-191 | an entry is accepted exactly when it has two or three `:`-fields and its last field holds at most one `/`; its key is that last field, with a protocol exactly when the field holds `/`; the binding is address and host port, address only, host port only, or unbound, according to which leading fields are non-empty |
| Normalize.NormalizePorts | dockerimp.py:144-198 | succeeds exactly when every entry is well formed; there is one exposed port per entry, keyed by the entry's last field, and it carries a protocol exactly when that field holds `/` |
| Normalize.PortBindingKeys | dockerimp.py:167-191 | the binding map's keys are exactly the last fields of the entries |
| Normalize.PortBindingLastWins | dockerimp.py:167-191 | when a port key is named twice, the later entry's binding is the one kept |
| Normalize.EnvEntries | dockerimp.py:200-208 | a string or list is taken as entries; a dict becomes one `key=value` entry per pair, in order; any other type is an invalid `env` argument |
| Normalize.DictEntryKey | dockerimp.py:206 | the key read back from a `key=value` entry built from a dict pair is that pair's key, when the key holds no `=` |
| Normalize.EnvKey | dockerimp.py:212 | a key read from an entry never holds `=` |
| Normalize.NormalizeEnv | dockerimp.py:210-214 | the entries are kept unchanged and in order, followed by exactly one marker entry naming their keys |
| Normalize.NormalizedEnvKeys | dockerimp.py:212 | the keys of the normalised environment are the entries' keys followed by the marker's own name |
| Normalize.MarkerRoundTrip | dockerimp.py:450-455 | reading back a marker the way the compliance check does (second `=`-field split on `:`) gives exactly the keys it was written from, when no key holds `=` or `:` |
| Normalize.EnvFormsAgree | dockerimp.py:200-214 | a comma-separated string, the same entries as a list, and the same pairs as a dict normalise to the same environment |
| Normalize.FixParameters | dockerimp.py:103-216 | succeeds exactly when volumes, ports and environment all normalise; the volumes error wins over the ports error, and the ports error over the environment error; name and command pass through; a given image gets its default tag; the environment, binds, mount points and ports are present exactly when given, and then are the normalised environment, the parsed binds and container paths, and the parsed ports |
| PortParser.ParseEntry | dockerimpimp.py:154-191 | an entry parses exactly when it is well formed; its key is the port with `/tcp` added when no protocol is given; a host address is recorded only when both an address and a host port are given |
| PortParser.ParsePortParams | dockerimpimp.py:141-194 | the result is "no ports" exactly when the parameter is empty; a parameter that is neither string nor list is invalid; otherwise the result is a binding map exactly when every entry is well formed, and invalid when any entry is malformed |
| PortParser.BindingKeys | dockerimpimp.py:171-191 | the keys of a parsed binding map are exactly the keys the entries' port fields name |
| PortParser.KeyForOneSlash | dockerimpimp.py:171-181 | a port field with at most one `/` yields a key with exactly one `/` |
| PortParser.KeysNameProtocol | dockerimpimp.py:171-181 | every key in a parsed result has the form `port/protocol` |
| PortParser.LaterEntryWins | dockerimpimp.py:189-191 | when a key is named twice, the later entry's address is the one kept |
| PortParser.StringAndListAgree | dockerimpimp.py:143-149 | a comma-separated string parses like the list of its pieces |
| PortParser.BadColonCount | dockerimpimp.py:155-169 | any entry whose `:`-field count is not two or three makes the whole parameter invalid |
| PortParser.SingleBadEntry | dockerimpimp.py:141-194 | a single malformed entry makes the whole parameter invalid |
| PortParser.SingleGoodEntry | dockerimpimp.py:141-194 | a single well-formed entry yields a one-key map |
| PortParser.FourFieldsInvalid | test-parser.py:12-16 | four `:`-separated fields are rejected, as the parser's test expects |
| PortParser.BarePortRejected | dockerimpimp.py:155-169 | a bare port with no `:` is rejected by the code |
| PortParser.AddressAndHostPortBound | dockerimpimp.py:183-187 | `ip:host:port` maps `port/tcp` to the address and host port |
| PortParser.HostPortAloneUnbound | dockerimpimp.py:183-187 | `host:port/protocol` maps its key to no address: the host port is dropped |
| LegacyNormalize.ParseLegacyVolume | docker.py:103-109 | an entry is accepted exactly when it holds a `:`; the mode is the third field when there are exactly three, else not given |
| LegacyNormalize.NormalizeLegacyVolumes | docker.py:95-114 | succeeds exactly when every entry holds a `:`; the mount points are the second fields, in order, and the binds are keyed by host directory |
| LegacyNormalize.LegacyBindKeys | docker.py:103-114 | a host directory is a bind key exactly when some volume entry names it |
| LegacyNormalize.LegacyBindLastWins | docker.py:103-114 | the bind stored for a host directory is the one parsed from the last entry that names it |
| LegacyNormalize.LegacyAcceptsMore | docker.py:103-109 | every volume dockerimp accepts, docker.py accepts with the same host and path; dockerimp's read-only flag is set exactly when docker.py stores the mode text `ro` |
| LegacyNormalize.FourFieldsAccepted | docker.py:103-109 | an entry with four or more fields is accepted by docker.py, with no mode |
| LegacyNormalize.LegacyFixParameters | docker.py:93-172 | succeeds exactly when volumes and ports normalise, and a bad `ports` value is an invalid `ports` argument; binds and mount points are present exactly when `volumes` is truthy and are then the normalised volumes; image, name, command and `latest_image` pass through unchanged (no tag defaulting, no environment) |
| Engine.Remove | dockerimp.py:420-427 | the remaining records are exactly those with another id; when a record had the id, the listing gets shorter |
| Engine.RemoveKeepsPair | dockerimp.py:420-427 | two records the removal keeps come from positions of the original listing in the same order; the positions are returned |
| Engine.RemoveKeepsOrder | docker.py:293-298 | the records a removal keeps stay in their listing order, so the first match docker.py picks afterwards is the first remaining one in the original order |
| Engine.Create | dockerimp.py:381-397 | creation succeeds exactly when the image is held locally; the new unstarted record is appended to the listing |
| ChangeLog.GenerateMessage | dockerimp.py:503-520 | the message is "up to date" exactly when nothing was logged, and otherwise carries the log itself |
| Lookup.MatchingFacts | dockerimp.py:327-330 | no container matches exactly when the match list is empty, and two positions match exactly when it has at least two entries |
| Lookup.FindContainer | dockerimp.py:325-336 | two matching containers give the ambiguity error; none gives nothing; otherwise the result is a listed container that matches |
| Lookup.FindUnique | dockerimp.py:325-336 | a container that is the only match is the one found, wherever it is listed |
| Lookup.FoundIsOnlyMatch | dockerimp.py:325-336 | the found container is listed and no other listed container matches |
| Lookup.FindAfterUpdate | dockerimp.py:399-418 | after a stop or start, the same name finds the updated record |
| Lookup.FindAfterAppend | dockerimp.py:381-397 | when nothing matched before, a newly created matching container is the one found |
| Lookup.FirstMatch | docker.py:225-236 | the result is the first eligible container in listing order, or nothing exactly when none is eligible |
| Lookup.FindRunningFirst | docker.py:224-237 | the flag is true exactly when a running container matches, and the container returned is then the first running match in listing order; otherwise it is the first stopped match; nothing is returned exactly when no container matches |
| Lookup.AppendedSoleMatch | docker.py:224-237 | when nothing answered to the name, an appended stopped container that does is what docker.py then finds, as a stopped match |
| Compliance.FindMarker | dockerimp.py:451-452 | the first entry that mentions the marker name, or nothing exactly when no entry does |
| Compliance.ManagedKeys | dockerimp.py:453-458 | a marker without `=` raises `IndexError`; otherwise the keys it names hold no `:` and, joined back with `:`, are its second `=`-field, so they are that field split on `:`; the marker name follows them |
| Compliance.EnvFires | dockerimp.py:450-479 | the marker read fails exactly when the marker lacks `=`; with no desired environment, only a marker calls for recreation; with one, a missing marker does; otherwise the container complies exactly when the key sets are equal and every desired entry is present |
| Compliance.BindsFire | dockerimp.py:481-494 | recreation is called for exactly when the rendered desired binds differ from the container's |
| Compliance.EnsureSame | dockerimp.py:434-501 | fails only when the marker read raises; otherwise the container is kept exactly when the image reference matches, the environment complies, the binds equal the rendered ones, and a given command matches |
| Compliance.NormalizedEnvComplies | dockerimp.py:450-479 | a normalised environment complies with itself when its entries neither mention the marker nor hold `:` in a key |
| Compliance.CreatedComplies | dockerimp.py:434-501 | a container created from parameters whose environment is self-consistent (no entry mentions the marker, no key holds `:`) and started with their binds passes the check, running or not |
| Compliance.ColonKeyNeverComplies | dockerimp.py:450-479 | with `env="A:B=1"` the normalised environment fails the check against itself: the marker reads back keys `A` and `B`, which the container does not have |
| Compliance.SameIgnoresRunning | dockerimp.py:434-501 | the check's verdict does not depend on whether the container runs |
| Compliance.UnstartedWithVolumesDiffers | dockerimp.py:481-494 | a created but never started container fails the check while volumes are requested |
| Recipes.CheckRequired | dockerimp.py:318-323 | nothing is reported exactly when every required field is given; otherwise the report is for some missing field |
| Recipes.NameCheckedBeforeImage | dockerimp.py:318-323 | a missing name is reported before a missing image |
| Recipes.IsRunningLatestImage | dockerimp.py:356-362 | true exactly when the reference is held locally and its id is the container's image id; a missing image gives false |
| Recipes.StopContainer | dockerimp.py:414-418 | every record with the container's id is marked stopped, every other record and the images are unchanged, and `Stopped` is logged |
| Recipes.StartContainer | dockerimp.py:399-412 | every record with the container's id is marked running with the rendered binds, every other record and the images are unchanged; the returned record runs with those binds and keeps its names and environment; `Started` is logged |
| Recipes.RestartContainer | dockerimp.py:429-432 | the engine is unchanged and exactly one `Restarted` entry for the container is appended to the log |
| Recipes.RemoveContainer | dockerimp.py:420-427 | the removal is reported as failed exactly when another listed container also matches the id, so the re-lookup still finds something; on success the id finds nothing, every remaining record has another id and was listed before, images are unchanged, and the log gains `Removed`, preceded by `Stopped` exactly when the container was running |
| Recipes.RemovedRecords | dockerimp.py:420-427 | after the stop and removal, every remaining record was listed before with another id, and a remaining record matches the id exactly when some other original record did |
| Recipes.PullImage | dockerimp.py:370-379 | a pull succeeds exactly when the registry or the local store has the reference; afterwards the reference is local with the registry's id; containers are unchanged; `Pulled` is logged exactly when the id changed |
| Recipes.EnsureImagePresentIn | dockerimp.py:309-312 | a local image means no change; otherwise the image is pulled, and the call fails exactly when the registry does not have it; the log only grows |
| Recipes.CreateFresh | dockerimp.py:300-304 | creation succeeds exactly when the image is local or pullable; the created record is appended and `Created` is logged last, so the log grows; when nothing matched, the name now finds it |
| Recipes.EnsureAbsent | dockerimp.py:262-267 | with the missing-container case corrected: a missing name is an error; when nothing matches, nothing changes; when a container is found, the run fails exactly when another listed container also answers to its id, and otherwise the log gains exactly `Stopped` (only if it was running) and `Removed`; on success the name finds nothing and images and registry are unchanged |
| Recipes.RemovedNoLongerFound | dockerimp.py:420-427 | removing the found container's id leaves nothing that the name matches |
| Recipes.RemoveContainerClears | dockerimp.py:420-427 | a successful removal of the found container leaves the name unmatched |
| Recipes.EnsureAbsentAsWritten | dockerimp.py:262-267 | as written: when nothing matches, the call raises `TypeError`; when a container is found, the run fails exactly when another listed container also answers to its id; on success a container was found, the log gains exactly `Stopped` (only if it was running) and `Removed`, and the name finds nothing |
| Recipes.AbsentAsWrittenFailsTwice | dockerimp.py:262-267 | applying `absent` as written a second time always raises `TypeError` |
| Recipes.AbsentIdempotent | dockerimp.py:262-267 | the corrected `absent` is idempotent |
| Recipes.EnsurePresentFrom | dockerimp.py:300-307 | succeeds exactly when the found container complies, or a non-compliant one can be removed and the image is local or pullable, or nothing was found and the image is local or pullable; a failed compliance read is passed on; a compliant found container is kept with nothing changed; the log stays the same exactly in that case and otherwise only grows; otherwise the result is a freshly created record; either way the name then finds the returned container |
| Recipes.EnsurePresent | dockerimp.py:218-223 | a missing name or image is reported first, then a failed lookup is passed on; otherwise it succeeds exactly when the found container complies, or a non-compliant one can be removed and the image is local or pullable, or nothing was found and the image is local or pullable; on success the name finds a single container |
| Recipes.StartIfStopped | dockerimp.py:230-232 | a running container is left alone; otherwise it is started with the rendered binds and exactly one `Started` entry is logged, and the name finds the started record; images are unchanged |
| Recipes.EnsureRunning | dockerimp.py:225-232 | a missing name or image is reported first, then a failed lookup is passed on; otherwise it succeeds exactly when `present` would (a compliant container, a removable non-compliant one with an obtainable image, or nothing found and an obtainable image); a running container that passes the compliance check means no change at all; otherwise a successful run logs at least one action; the log only grows; on success the name finds a single container, and it is running |
| Recipes.LatestFrom | dockerimp.py:238-249 | succeeds exactly when a container not on the latest local image can be removed and the image obtained, or, for one on the latest local image, as for `present`, or nothing was found and the image is obtainable; a running container on the local image's id that passes the compliance check is kept with nothing changed, and the log stays the same exactly in that case; otherwise a changed run returns a record created from the parameters; the log only grows; afterwards the name finds the container used, the image is local, and the container runs that local image's id |
| Recipes.EnsureRunningLatest | dockerimp.py:234-250 | a missing name or image is reported first, then a failed lookup is passed on; otherwise it succeeds exactly when the branches of `running_latest` can (a stale container must be removable and the image obtainable, otherwise as for `present`); a running, compliant container on the latest local image means no change at all; otherwise a successful run logs at least one action; the log only grows; on success the name finds a running container whose image id is the id the reference has locally |
| Recipes.LatestLeavesCompliant | dockerimp.py:234-250 | when the environment is self-consistent, after `running_latest` succeeds the name finds a running, compliant container on the latest local image |
| Recipes.RunningLatestIdempotent | dockerimp.py:234-250 | when the environment is self-consistent, a second `running_latest` changes nothing and logs nothing |
| Recipes.EnsureStopped | dockerimp.py:252-260 | a missing name is an error and a missing container is "not found"; a found running container is stopped and exactly one `Stopped` entry is logged; a found stopped one means no change; on success the name finds a stopped container and images are unchanged |
| Recipes.StoppedIdempotent | dockerimp.py:252-260 | stopping twice gives the same result as stopping once |
| Recipes.Restart | dockerimp.py:269-278 | a missing or stopped container is an error; a found running container is always restarted: the engine is unchanged and exactly one `Restarted` entry is logged |
| Recipes.EnsureImagePresent | dockerimp.py:280-284 | a missing image parameter is an error; a local image means no change; a missing one, when pulled, logs exactly one `Pulled` entry for the pulled id; on success the image is local |
| Recipes.EnsureImageLatest | dockerimp.py:286-290 | a missing image parameter is an error; the log stays the same exactly when the image was already local with the id it has afterwards, and otherwise gains exactly one `Pulled` entry; on success the local id is the registry's id when the registry has the reference |
| Recipes.EnsureImageAbsent | dockerimp.py:292-298 | a missing image parameter is an error; once it is given the recipe always succeeds, the local references are exactly the old ones minus this one, the registry is unchanged, and no other image, no container and no log entry changes |
| Recipes.RunningLeavesCompliant | dockerimp.py:225-232 | after `running` succeeds, the name finds a running container that passes the compliance check |
| Recipes.RunningIdempotent | dockerimp.py:225-232 | when the environment is self-consistent, a second `running` changes nothing and logs nothing |
| Recipes.PresentIdempotentWithoutVolumes | dockerimp.py:218-223 | when the environment is self-consistent (no entry mentions `ANSIBLE_MANAGED_ENVS`, no key holds `:`) and no volumes are requested, a second `present` changes nothing and logs nothing |
| Recipes.Report | dockerimp.py:503-520 | a failed recipe fails the module with its error; a finished one reports `changed` exactly when it logged something, and then its log as the message; `changed` holds exactly when the message is not "up to date" |
| Recipes.RunModule | dockerimp.py:522-575 | `image_absent` is rejected as an invalid `state`; a normalisation error fails the module; otherwise the outcome is the report of the recipe the state selects, run from an empty log |
| Recipes.ModuleRunningSettles | dockerimp.py:225-232 | after a successful `running`, running the module again with `running` and self-consistent parameters reports no change and "up to date" |
| LegacyRecipes.LegacyEnsureSame | docker.py:305-312 | without `latest_image` the container is always kept; with it, the image is pulled, which fails exactly when the registry and local store lack it; containers are never touched |
| LegacyRecipes.LegacyCreate | docker.py:256-272 | creation succeeds exactly when the image is already local (docker.py does not pull); the record is appended unstarted, named `/name`, with no environment, and `Created` is logged; when nothing answered to the name, the name now finds the new record as a stopped match |
| LegacyRecipes.LegacyRemoveContainer | docker.py:293-298 | the removal is reported as failed exactly when another listed container also answers to the id; on success the id finds nothing, the listing is strictly shorter, images are unchanged and `Removed` is logged |
| LegacyRecipes.LegacyEnsureAbsent | docker.py:203-211 | a missing name is an error; a missing container means no change; otherwise the run fails exactly when another listed container also answers to the found id, and a successful run stops the container first exactly when it runs and then removes it: the log gains `Stopped` (only then) and `Removed`, its id disappears, every remaining record was there before, and images are unchanged |
| LegacyRecipes.LegacyAbsentClears | docker.py:203-211 | when at most one container carries the name, after `absent` the name finds nothing and a second `absent` changes nothing |
| LegacyRecipes.LegacyEnsurePresent | docker.py:174-186 | name and then image are required; when nothing matches, creation succeeds exactly when the image is local and the name then finds the new record; without `latest_image` a found container is kept with nothing changed; on success the returned container is listed, the name finds a container and the log only grows |
| LegacyRecipes.LegacyPresentIdempotent | docker.py:174-186 | without `latest_image`, a second `present` succeeds and changes nothing |
| LegacyRecipes.LegacyEnsureRunning | docker.py:188-191 | errors from `present` are passed on, and a successful `present` always gives a successful `running`; when a running container answers to the returned id nothing more happens, otherwise exactly one `Started` entry is logged; the log only grows; on success the container `present` returned is found among running containers |
| LegacyRecipes.LegacyRunningIdempotent | docker.py:188-191 | without `latest_image`, a second `running` changes nothing and logs nothing |
| LegacyRecipes.LegacyStart | docker.py:274-286 | afterwards a running container answers to every name or id the started container answers to, and `Started` is appended to the log |
| LegacyRecipes.LegacyEnsureStoppedAsWritten | docker.py:193-201 | as written: a missing container raises `NameError` from the misspelled exception class |
| LegacyRecipes.LegacyEnsureStopped | docker.py:193-201 | corrected: a missing container is "not found"; a stopped one means no change; a running one is stopped and logged |
| LegacyRecipes.StoppedMisreportsMissing | docker.py:199 | the two versions differ exactly on a missing container, where the as-written one raises `NameError` instead of "not found" |
| LegacyRecipes.LegacyRestart | docker.py:213-222 | a missing or stopped container is an error; a running match is always restarted: the engine is unchanged and exactly one `Restarted` entry for the found id is logged |
| LegacyRecipes.LegacyRunModule | docker.py:333-370 | any state outside the five docker.py offers is rejected as an invalid `state`; a normalisation error fails the module; otherwise the outcome is the report of the recipe the state selects, run from an empty log; `changed` holds exactly when the message is not "up to date" |
| LegacyRecipes.LegacyModuleAbsentSettles | docker.py:203-211 | when at most one container carries the name, running docker.py's module with `absent` a second time reports no change and "up to date" |

## Left out

- The engine API, the Docker daemon and the network are replaced by the engine value. Engine errors are not modelled, except "no such image" on create. The container id a create returns is a parameter of the recipes.
- `find_image` lists images and then matches their repository tags. It is modelled as an exact lookup of the reference among the local images.
- When a container is started, the engine records the binds it was given as their `host:path:ro|rw` strings, and records none when started without binds. Docker's merging of host configuration is not modelled.
- A docker.py start does not record binds, because docker.py never reads them back.
- The image's own environment, which Docker merges into `Config.Env`, is not modelled. A container whose `Config.Env` is `None` is not modelled either.
- `write_log` records the action and the id of its subject. The name and image fields it also writes are not modelled.
- Python dict iteration order is taken to be the order of the given pairs.
- Python 2 `unicode` values fail the `type(...) is str` test in the source. The model treats every string parameter as `str`.
- The `latest_image` branch of dockerimp's `ensure_same` (dockerimp.py:444-448) is left out. The parameter is not in dockerimp's argument spec, and the branch calls a method the class does not define.
- Duplicate host paths in `volumes`, and duplicate port keys in `ports`, overwrite the earlier entry, as the code does.
- The test file for `parse_port_params` expects a bare `"80"` to give `{'80/tcp': None}` (test-parser.py:18-23). The code rejects it, and the model follows the code (`PortParser.BarePortRejected`).
- The same test file expects `"80:80"` to bind the host port with `HostIp` `'0.0.0.0'`. The code maps a host port without an address to `None` (dockerimpimp.py:183-187), and the model follows the code (`PortParser.HostPortAloneUnbound`).
- The tests unpack a pair `res, err` from `parse_port_params`. The code returns a bare dict (dockerimpimp.py:191) or a bare `None` (dockerimpimp.py:194), and the model returns the bindings, "no ports" or "invalid" as the code does.
- docker.py reads `x['Names'][0]` for every listed container it compares (docker.py:227), so a container with no names would raise `IndexError` before any match is decided. The model does not raise there: such a container does not match by name but can still match by its full id.
- The `image_absent` state cannot be reached through dockerimp's `main`, because it is not among the allowed `state` choices. `Recipes.EnsureImageAbsent` models the recipe itself.
- Check mode (dockerimp.py:99, docker.py:89), `insecure_registry` (dockerimp.py:371-373) and `client_url` (dockerimp.py:97, docker.py:87) are not modelled, because they only configure the client.
- Recipes.EnsurePresent: states when it succeeds and that the name then finds a single container. The facts about which container it keeps or recreates are stated on `Recipes.EnsurePresentFrom`.
- Recipes.RunningIdempotent: holds only when no environment entry mentions `ANSIBLE_MANAGED_ENVS` and no key holds `:`. With `env="A:B=1"` the marker reads back keys `A` and `B`, so every run recreates the container (`Compliance.ColonKeyNeverComplies`). The same condition applies to `Recipes.PresentIdempotentWithoutVolumes` and `Recipes.ModuleRunningSettles`.
- Compliance.CreatedComplies: holds under the same condition, for the same reason.
- The model assumes the engine reports a container's creation command as a top-level `Command` field, because dockerimp.py:498 reads it there. Docker's inspect record keeps the command under `Config.Cmd`, so with `command` set that read may raise `KeyError`. `Compliance.CreatedComplies` and `Recipes.RunningIdempotent` rely on the assumption whenever a command is given.
- LegacyRecipes.LegacyEnsurePresent: with `latest_image`, it states only that the returned container is listed and found by name. It does not state when the pulled image makes docker.py recreate the container.

## Findings

| source | as written | input that shows it | evidently intended | confidence | as-written member | corrected member |
|---|---|---|---|---|---|---|
| dockerimp.py:262-267 | `ensure_absent` calls `remove_container(find_container(name))` even when nothing is found, and `remove_container` first reads `container['State']['Running']` of `None` (dockerimp.py:421), a `TypeError` | `state=absent` for a name no container has, for example the second run of `absent` | a missing container is already absent: report no change | high (not executed) | Recipes.EnsureAbsentAsWritten | Recipes.EnsureAbsent |
| docker.py:199 | `ensure_stopped` raises `ContaqinerManagerException`, a name that is not defined | `state=stopped` for a name no container has | raise `ContainerManagerException` ("not found") | high (not executed) | LegacyRecipes.LegacyEnsureStoppedAsWritten | LegacyRecipes.LegacyEnsureStopped |

=== FILE: compliance.dfy ===
/**
 * `ensure_same` of dockerimp.py: does an existing container already match the
 * parameters, or must it be recreated? Four sub-checks each may call for a
 * restart: the image reference, the managed environment, the host binds, and
 * the command.
 */
module Compliance {
  import opened Results
  import opened PyStr
  import opened Engine
  import Normalize

  /** The distinct strings of a list, as Python's `set(...)`. */
  function Elems(xs: seq<string>): set<string>
  {
    set x | x in xs
  }

  /**
   * The position of the first environment entry that mentions the marker
   * name anywhere (a substring test, so `FOO=ANSIBLE_MANAGED_ENVS` counts).
   */
  function FindMarker(env: seq<string>): (r: Option<nat>)
    ensures r.None? <==> forall i :: 0 <= i < |env| ==> !Contains(env[i], Normalize.ManagedEnvs)
    ensures r.Some? ==> r.value < |env| && Contains(env[r.value], Normalize.ManagedEnvs)
    ensures r.Some? ==> forall j :: 0 <= j < r.value ==> !Contains(env[j], Normalize.ManagedEnvs)
  {
    if |env| == 0 then None
    else if Contains(env[0], Normalize.ManagedEnvs) then Some(0)
    else
      var r := FindMarker(env[1..]);
      assert forall i :: 1 <= i < |env| ==> env[i] == env[1..][i - 1];
      match r
      case None => None
      case Some(k) => Some(k + 1)
  }

  /**
   * The keys a marker entry names, with the marker's own name appended. The
   * value is the second `=`-field split on `:`; an entry with no `=` has no
   * second field and raises `IndexError`.
   */
  function ManagedKeys(entry: string): (r: Result<seq<string>>)
    ensures r.Err? <==> '=' !in entry
    ensures r.Err? ==> r.error == Crash("IndexError")
    ensures r.Ok? ==> |r.value| >= 2 && r.value[|r.value| - 1] == Normalize.ManagedEnvs
    ensures r.Ok? ==> Join(r.value[..|r.value| - 1], ':') == Split(entry, '=')[1]
    ensures r.Ok? ==> forall i :: 0 <= i < |r.value| - 1 ==> ':' !in r.value[i]
  {
    var f := Split(entry, '=');
    CountZero(entry, '=');
    if |f| < 2 then Err(Crash("IndexError"))
    else
      var keys := Split(f[1], ':');
      assert (keys + [Normalize.ManagedEnvs])[..|keys|] == keys;
      Ok(keys + [Normalize.ManagedEnvs])
  }

  /**
   * The environment sub-check. The marker is looked up (and read, which may
   * raise) whatever the parameters say. Then: no desired environment and no
   * marker is compliant; exactly one of the two is not; with both, the keys
   * the marker names must equal the desired keys as sets and every desired
   * entry must be present verbatim.
   */
  function EnvFires(desired: Option<seq<string>>, env: seq<string>): (r: Result<bool>)
    ensures r.Err? <==> FindMarker(env).Some? && '=' !in env[FindMarker(env).value]
    ensures r.Err? ==> r.error == Crash("IndexError")
    ensures r.Ok? && desired.None? ==> (r.value <==> FindMarker(env).Some?)
    ensures r.Ok? && desired.Some? && FindMarker(env).None? ==> r.value
    ensures r.Ok? && desired.Some? && FindMarker(env).Some? ==>
      (!r.value <==> Elems(ManagedKeys(env[FindMarker(env).value]).value) == Elems(Normalize.EnvKeys(desired.value))
                     && forall i :: 0 <= i < |desired.value| ==> desired.value[i] in env)
  {
    var marker := FindMarker(env);
    if marker.None? then Ok(desired.Some?)
    else
      var managed :- ManagedKeys(env[marker.value]);
      if desired.None? then Ok(true)
      else if Elems(managed) != Elems(Normalize.EnvKeys(desired.value)) then Ok(true)
      else Ok(exists i :: 0 <= i < |desired.value| && desired.value[i] !in env)
  }

  /**
   * The bind sub-check. When either side is empty the container complies only
   * if both are; otherwise the rendered binds must equal the reported ones.
   * Both cases together: compliant exactly when the rendered desired binds
   * equal the container's.
   */
  function BindsFire(binds: Option<map<string, Normalize.Bind>>, current: set<string>): (fires: bool)
    ensures fires <==> RenderBinds(binds.GetOr(map[])) != current
  {
    var containerBinds := |current| > 0;
    var bindParams := binds.Some? && |binds.value| > 0;
    if containerBinds || bindParams then
      if containerBinds && bindParams then RenderBinds(binds.value) != current
      else true
    else false
  }

  /** The command sub-check: only a non-empty desired command is compared. */
  predicate CommandFires(command: Option<string>, current: string)
  {
    Normalize.Given(command) && command.value != current
  }

  /**
   * `ensure_same`: `Ok(true)` when the container may be kept. Only the
   * marker read can raise; otherwise the container is kept exactly when it
   * runs the desired image reference, the environment sub-check passes, the
   * rendered binds equal its binds, and a given command equals its command.
   */
  function EnsureSame(p: Normalize.Params, c: Container): (r: Result<bool>)
    ensures r.Err? <==> EnvFires(p.environment, c.env).Err?
    ensures r.Err? ==> r.error == Crash("IndexError")
    ensures r.Ok? ==> (r.value <==>
      && p.image == Some(c.image)
      && !EnvFires(p.environment, c.env).value
      && RenderBinds(p.binds.GetOr(map[])) == c.binds
      && (Normalize.Given(p.command) ==> p.command.value == c.command))
  {
    var imageFires := c.image != p.image.GetOr("") || p.image.None?;
    var envFires :- EnvFires(p.environment, c.env);
    var bindsFire := BindsFire(p.binds, c.binds);
    var commandFires := CommandFires(p.command, c.command);
    Ok(!(imageFires || envFires || bindsFire || commandFires))
  }

  /** The marker a normalised environment ends with mentions the marker name. */
  lemma MarkerMentionsName(keys: seq<string>)
    ensures Contains(Normalize.MarkerEntry(keys), Normalize.ManagedEnvs)
  {
    var m := Normalize.MarkerEntry(keys);
    assert m[..|Normalize.ManagedEnvs|] == Normalize.ManagedEnvs;
    assert OccursAt(m, Normalize.ManagedEnvs, 0);
  }

  /**
   * A normalised environment whose own entries neither mention the marker
   * name nor hold `:` in a key complies with itself: the marker is found at
   * its end, names exactly the entries' keys, and every entry is present.
   */
  lemma NormalizedEnvComplies(entries: seq<string>)
    requires |entries| >= 1
    requires forall i :: 0 <= i < |entries| ==> !Contains(entries[i], Normalize.ManagedEnvs)
    requires forall i :: 0 <= i < |entries| ==> ':' !in Normalize.EnvKey(entries[i])
    ensures var env := Normalize.NormalizeEnv(entries);
      EnvFires(Some(env), env) == Ok(false)
  {
    var env := Normalize.NormalizeEnv(entries);
    var keys := Normalize.EnvKeys(entries);
    MarkerMentionsName(keys);
    assert forall i :: 0 <= i < |entries| ==> env[i] == entries[i];
    assert FindMarker(env) == Some(|entries|);
    Normalize.MarkerRoundTrip(keys);
    var marker := Normalize.MarkerEntry(keys);
    CountZero(marker, '=');
    var managed := ManagedKeys(marker).value;
    assert managed == Split(Split(marker, '=')[1], ':') + [Normalize.ManagedEnvs];
    Normalize.NormalizedEnvKeys(entries);
    assert managed == Normalize.EnvKeys(env);
  }

  /**
   * The desired environment is absent, or was normalised from at least one
   * entry, none of which mentions the marker name or holds `:` in its key.
   */
  predicate SelfConsistentEnv(p: Normalize.Params, entries: seq<string>)
  {
    && (p.environment.None? || p.environment == Some(Normalize.NormalizeEnv(entries)))
    && |entries| >= 1
    && (forall i :: 0 <= i < |entries| ==> !Contains(entries[i], Normalize.ManagedEnvs))
    && (forall i :: 0 <= i < |entries| ==> ':' !in Normalize.EnvKey(entries[i]))
  }

  /**
   * A container created from the parameters, carrying the binds they render
   * to (as once started with them), passes the check against those same
   * parameters, running or not, provided the environment was normalised from
   * entries that neither mention the marker name nor hold `:` in a key.
   */
  lemma CreatedComplies(p: Normalize.Params, id: string, imageId: string, entries: seq<string>, running: bool)
    requires Normalize.Given(p.name) && Normalize.Given(p.image)
    requires SelfConsistentEnv(p, entries)
    ensures EnsureSame(p, Created(p, id, imageId).(binds := RenderBinds(p.binds.GetOr(map[])), running := running)) == Ok(true)
  {
    var c := Created(p, id, imageId).(binds := RenderBinds(p.binds.GetOr(map[])), running := running);
    if p.environment.Some? {
      NormalizedEnvComplies(entries);
    } else {
      assert FindMarker(c.env) == None;
    }
  }

  /**
   * A variable whose name holds `:` never complies, not even with the very
   * environment it was normalised into: the marker records `A:B`, but reading
   * it back splits that into `A` and `B`. A container created with
   * `env="A:B=1"` is therefore recreated on every run.
   */
  lemma ColonKeyNeverComplies(p: Normalize.Params, c: Container)
    requires p.environment == Some(Normalize.NormalizeEnv(["A:B=1"]))
    requires c.env == Normalize.NormalizeEnv(["A:B=1"])
    ensures EnsureSame(p, c) == Ok(false)
  {
    var env := Normalize.NormalizeEnv(["A:B=1"]);
    ColonMarkerFound();
    var keys := ["A", "B"];
    assert '=' !in keys[0] && ':' !in keys[0] && '=' !in keys[1] && ':' !in keys[1];
    MarkerReadsBack(keys);
    assert ManagedKeys(env[1]).value[0] == "A";
    ColonKeysKept();
    assert "A" !in Normalize.EnvKeys(env) by {
      assert |"A"| < |"A:B"| && |"A"| < |Normalize.ManagedEnvs|;
    }
    KeyMissingFires(env, env, "A");
  }

  /** A key the marker names but the desired environment lacks calls for recreation. */
  lemma KeyMissingFires(desired: seq<string>, env: seq<string>, k: string)
    requires FindMarker(env).Some? && ManagedKeys(env[FindMarker(env).value]).Ok?
    requires k in ManagedKeys(env[FindMarker(env).value]).value
    requires k !in Normalize.EnvKeys(desired)
    ensures EnvFires(Some(desired), env) == Ok(true)
  {
    assert k in Elems(ManagedKeys(env[FindMarker(env).value]).value);
    assert k !in Elems(Normalize.EnvKeys(desired));
  }

  /** The marker of `env="A:B=1"` is its second entry, the marker of `A` and `B`. */
  lemma ColonMarkerFound()
    ensures var env := Normalize.NormalizeEnv(["A:B=1"]);
      && FindMarker(env) == Some(1)
      && env[1] == Normalize.MarkerEntry(["A", "B"])
  {
    var entries := ["A:B=1"];
    var env := Normalize.NormalizeEnv(entries);
    assert env[0] == entries[0] by {
      assert env[..|entries|] == entries;
    }
    assert !Contains(env[0], Normalize.ManagedEnvs);
    ColonKeysKept();
    assert env[1] == Normalize.MarkerEntry(["A:B"]);
    ColonJoin();
    MarkerMentionsName(["A:B"]);
  }

  /** Joining `A` and `B` with `:` gives back `A:B`. */
  lemma ColonJoin()
    ensures Normalize.MarkerEntry(["A:B"]) == Normalize.MarkerEntry(["A", "B"])
  {
    var parts := ["A", "B"];
    assert parts[1..] == ["B"];
    assert Join(parts, ':') == "A" + [':'] + "B";
    assert "A" + [':'] + "B" == "A:B";
  }

  /** Reading back a marker whose keys hold neither `=` nor `:` gives those keys and the marker name. */
  lemma MarkerReadsBack(keys: seq<string>)
    requires |keys| >= 1
    requires forall i :: 0 <= i < |keys| ==> '=' !in keys[i] && ':' !in keys[i]
    ensures ManagedKeys(Normalize.MarkerEntry(keys)) == Ok(keys + [Normalize.ManagedEnvs])
  {
    Normalize.MarkerRoundTrip(keys);
    assert '=' in Normalize.MarkerEntry(keys) by {
      assert Normalize.MarkerEntry(keys)[|Normalize.ManagedEnvs|] == '=';
    }
  }

  /** The keys of the normalised `env="A:B=1"` are `A:B` and the marker name. */
  lemma ColonKeysKept()
    ensures Normalize.EnvKeys(["A:B=1"]) == ["A:B"]
    ensures Normalize.EnvKeys(Normalize.NormalizeEnv(["A:B=1"])) == ["A:B", Normalize.ManagedEnvs]
  {
    Normalize.DictEntryKey("A:B", "1");
    assert "A:B" + "=" + "1" == "A:B=1";
    assert Normalize.EnvKey("A:B=1") == "A:B";
    assert Normalize.EnvKeys(["A:B=1"]) == ["A:B"];
    Normalize.NormalizedEnvKeys(["A:B=1"]);
  }

  /** The check does not look at whether the container is running. */
  lemma SameIgnoresRunning(p: Normalize.Params, c: Container, running: bool)
    ensures EnsureSame(p, c.(running := running)) == EnsureSame(p, c)
  {
  }

  /** Without volumes a created container reports the binds it should: none. */
  lemma NoBindsRenderEmpty()
    ensures RenderBinds(map[]) == {}
  {
    assert forall x :: x !in RenderBinds(map[]);
  }

  /**
   * A created container that has never been started reports no binds, so
   * while volumes are requested it never passes the check: `present` with
   * volumes recreates the container on every run.
   */
  lemma UnstartedWithVolumesDiffers(p: Normalize.Params, id: string, imageId: string)
    requires Normalize.Given(p.name) && Normalize.Given(p.image)
    requires p.binds.Some? && |p.binds.value| > 0
    ensures EnsureSame(p, Created(p, id, imageId)) != Ok(true)
  {
  }
}

=== FILE: engine.dfy ===
/**
 * The container engine as a value, and the change log a run accumulates.
 *
 * The engine is reduced to what the recipes observe: the container records
 * it lists (in listing order), the image references it holds locally, and the
 * references a pull would fetch from the registry. Each lifecycle call is a
 * function from one engine value to the next.
 */
module Engine {
  import opened Results
  import Normalize

  /** One container, as listed and inspected. */
  datatype Container = Container(
    id: string,
    names: seq<string>,   // `Names`; the first is "/" + the container name
    image: string,        // `Config.Image`: the reference it was created from
    imageId: string,      // `Image`: the id of the image it runs
    command: string,      // `Command`
    env: seq<string>,     // `Config.Env`
    binds: set<string>,   // `HostConfig.Binds`, as `host:container:ro|rw` strings; empty when unset
    running: bool)        // `State.Running`

  datatype State = State(
    containers: seq<Container>,
    images: map<string, string>,    // local image reference -> image id
    registry: map<string, string>)  // image reference -> id a pull would fetch

  /** `(x['Names'] or [""])[0]`. */
  function FirstName(c: Container): string
  {
    if |c.names| == 0 then "" else c.names[0]
  }

  /**
   * What a stop or a start does to a container record: a start given host
   * binds records them; a start whose binds are not recorded only marks the
   * container running.
   */
  datatype Change = MarkStopped | MarkStarted(binds: set<string>) | MarkRunning

  function Apply(ch: Change, c: Container): Container
  {
    match ch
    case MarkStopped => c.(running := false)
    case MarkStarted(binds) => c.(running := true, binds := binds)
    case MarkRunning => c.(running := true)
  }

  /** Applies a change to every record with the given id. */
  function UpdateById(cs: seq<Container>, id: string, ch: Change): (r: seq<Container>)
    ensures |r| == |cs|
    ensures forall i :: 0 <= i < |cs| ==> r[i] == if cs[i].id == id then Apply(ch, cs[i]) else cs[i]
  {
    seq(|cs|, i requires 0 <= i < |cs| => if cs[i].id == id then Apply(ch, cs[i]) else cs[i])
  }

  /** The bind strings the engine reports once a container is started with these binds. */
  function RenderBinds(binds: map<string, Normalize.Bind>): (r: set<string>)
    ensures |binds| > 0 ==> |r| > 0
  {
    var r := set host | host in binds :: Normalize.RenderBind(host, binds[host]);
    assert |binds| > 0 ==> exists h :: h in binds;
    assert |binds| > 0 ==> exists h :: h in binds && Normalize.RenderBind(h, binds[h]) in r;
    r
  }

  /** `client.stop(id)`. */
  function Stop(s: State, id: string): State
  {
    s.(containers := UpdateById(s.containers, id, MarkStopped))
  }

  /** `client.start(id, binds=...)`: the host configuration is given at start. */
  function Start(s: State, id: string, binds: set<string>): State
  {
    s.(containers := UpdateById(s.containers, id, MarkStarted(binds)))
  }

  /** `client.remove_container(id)`: every record with that id disappears. */
  function Remove(cs: seq<Container>, id: string): (r: seq<Container>)
    ensures forall c :: c in r <==> c in cs && c.id != id
    ensures (exists i :: 0 <= i < |cs| && cs[i].id == id) ==> |r| < |cs|
    ensures |r| <= |cs|
  {
    if |cs| == 0 then []
    else
      var rest := Remove(cs[1..], id);
      assert forall c :: c in cs <==> c == cs[0] || c in cs[1..];
      assert (exists i :: 0 <= i < |cs| && cs[i].id == id) && cs[0].id != id ==>
               exists i :: 0 <= i < |cs[1..]| && cs[1..][i].id == id by {
        if (exists i :: 0 <= i < |cs| && cs[i].id == id) && cs[0].id != id {
          var i :| 0 <= i < |cs| && cs[i].id == id;
          assert cs[1..][i - 1].id == id;
        }
      }
      if cs[0].id == id then rest else [cs[0]] + rest
  }

  /**
   * Two records `Remove` keeps come from positions `a < b` of the original
   * listing: the positions are returned.
   */
  lemma {:induction false} RemoveKeepsPair(cs: seq<Container>, id: string, i: nat, j: nat) returns (a: nat, b: nat)
    requires i < j < |Remove(cs, id)|
    ensures a < b < |cs| && Remove(cs, id)[i] == cs[a] && Remove(cs, id)[j] == cs[b]
    decreases |cs|, 1
  {
    if cs[0].id == id {
      a, b := PairAfterDroppedHead(cs, id, i, j);
    } else if i == 0 {
      a, b := PairWithKeptHead(cs, id, j);
    } else {
      a, b := PairAfterKeptHead(cs, id, i, j);
    }
  }

  /** `RemoveKeepsPair` when the head record has the removed id. */
  lemma {:induction false} PairAfterDroppedHead(cs: seq<Container>, id: string, i: nat, j: nat) returns (a: nat, b: nat)
    requires |cs| > 0 && cs[0].id == id && i < j < |Remove(cs, id)|
    ensures a < b < |cs| && Remove(cs, id)[i] == cs[a] && Remove(cs, id)[j] == cs[b]
    decreases |cs|, 0
  {
    assert Remove(cs, id) == Remove(cs[1..], id);
    var a', b' := RemoveKeepsPair(cs[1..], id, i, j);
    a, b := a' + 1, b' + 1;
  }

  /** `RemoveKeepsPair` for the kept head record and a later one. */
  lemma PairWithKeptHead(cs: seq<Container>, id: string, j: nat) returns (a: nat, b: nat)
    requires |cs| > 0 && cs[0].id != id && 0 < j < |Remove(cs, id)|
    ensures a < b < |cs| && Remove(cs, id)[0] == cs[a] && Remove(cs, id)[j] == cs[b]
  {
    var rest := Remove(cs[1..], id);
    assert Remove(cs, id) == [cs[0]] + rest;
    assert Remove(cs, id)[j] == rest[j - 1] && rest[j - 1] in rest;
    var k :| 0 <= k < |cs[1..]| && cs[1..][k] == Remove(cs, id)[j];
    a, b := 0, k + 1;
  }

  /** `RemoveKeepsPair` for two records after the kept head record. */
  lemma {:induction false} PairAfterKeptHead(cs: seq<Container>, id: string, i: nat, j: nat) returns (a: nat, b: nat)
    requires |cs| > 0 && cs[0].id != id && 0 < i < j < |Remove(cs, id)|
    ensures a < b < |cs| && Remove(cs, id)[i] == cs[a] && Remove(cs, id)[j] == cs[b]
    decreases |cs|, 0
  {
    var rest := Remove(cs[1..], id);
    assert Remove(cs, id) == [cs[0]] + rest;
    var a', b' := RemoveKeepsPair(cs[1..], id, i - 1, j - 1);
    a, b := a' + 1, b' + 1;
  }

  /** Records `i` and `j` of `r` come from positions `a < b` of `cs`. */
  predicate FromOrderedPositions(cs: seq<Container>, r: seq<Container>, i: nat, j: nat)
    requires i < |r| && j < |r|
  {
    exists a, b :: 0 <= a < b < |cs| && r[i] == cs[a] && r[j] == cs[b]
  }

  /** The records `Remove` keeps stay in their listing order. */
  lemma RemoveKeepsOrder(cs: seq<Container>, id: string)
    ensures forall i: nat, j: nat :: i < j < |Remove(cs, id)| ==> FromOrderedPositions(cs, Remove(cs, id), i, j)
  {
    forall i: nat, j: nat | i < j < |Remove(cs, id)|
      ensures FromOrderedPositions(cs, Remove(cs, id), i, j)
    {
      var a, b := RemoveKeepsPair(cs, id, i, j);
    }
  }

  /** The record `client.create_container` adds: created, not started, no host binds yet. */
  function Created(p: Normalize.Params, id: string, imageId: string): Container
    requires Normalize.Given(p.name) && Normalize.Given(p.image)
  {
    Container(id, ["/" + p.name.value], p.image.value, imageId,
              p.command.GetOr(""), p.environment.GetOr([]), {}, false)
  }

  /** `client.create_container(...)`: fails when the image is not held locally. */
  function Create(s: State, p: Normalize.Params, id: string): (r: Result<(State, Container)>)
    requires Normalize.Given(p.name) && Normalize.Given(p.image)
    ensures r.Ok? <==> p.image.value in s.images
    ensures r.Ok? ==> r.value.1 == Created(p, id, s.images[p.image.value])
    ensures r.Ok? ==> r.value.0 == s.(containers := s.containers + [r.value.1])
  {
    if p.image.value !in s.images then Err(EngineError("No such image"))
    else
      var c := Created(p, id, s.images[p.image.value]);
      Ok((s.(containers := s.containers + [c]), c))
  }

  /** Is the image held locally? Its id if so (`find_image`). */
  function FindImage(s: State, ref: string): Option<string>
  {
    if ref in s.images then Some(s.images[ref]) else None
  }

  /** `client.pull(ref)`: fetches the registry's image for the reference, if it has one. */
  function Pull(s: State, ref: string): State
  {
    if ref in s.registry then s.(images := s.images[ref := s.registry[ref]]) else s
  }

  /** `client.remove_image(ref)`. */
  function RemoveImage(s: State, ref: string): State
  {
    s.(images := s.images - {ref})
  }
}

/** `write_log`, `has_changes` and `generate_message`. */
module ChangeLog {

  datatype Action = Created | Started | Stopped | Restarted | Removed | Pulled

  /** One logged action and the id of the container or image it acted on. */
  datatype Entry = Entry(action: Action, subject: string)

  /** What the module reports back. */
  datatype Message = UpToDate | Changes(log: seq<Entry>)

  /** `changed`: something was logged. */
  function HasChanges(log: seq<Entry>): bool
  {
    |log| > 0
  }

  /** "Up to date. No changes made" when nothing was logged, else the log itself. */
  function GenerateMessage(log: seq<Entry>): (m: Message)
    ensures m == UpToDate <==> !HasChanges(log)
    ensures m.Changes? ==> m.log == log
  {
    if !HasChanges(log) then UpToDate else Changes(log)
  }
}

=== FILE: legacy_normalize.dfy ===
/**
 * The earlier parameter normaliser of docker.py (`fix_parameters`). Its port
 * handling is the same code as dockerimp.py's; its volume handling does not
 * validate the mode, and it neither defaults the image tag nor touches the
 * environment.
 */
module LegacyNormalize {
  import opened Results
  import opened PyStr
  import opened PyDict
  import Normalize

  /** The `ro` value docker.py stores: the third field verbatim, or `False`. */
  datatype Mode = ModeField(text: string) | NotGiven

  datatype LegacyBind = LegacyBind(bind: string, ro: Mode)

  datatype LegacyVolumes = LegacyVolumes(binds: map<string, LegacyBind>, mountPoints: seq<string>)

  /**
   * One volume entry. Fewer than two `:`-fields is an error (the source's
   * `IndexError`); a third field is kept as the mode whatever it says; an
   * entry with four or more fields is accepted with no mode.
   */
  function ParseLegacyVolume(entry: string): (r: Result<(string, LegacyBind)>)
    ensures r.Ok? <==> ':' in entry
    ensures r.Err? ==> r.error == InvalidArgument("volumes")
    ensures r.Ok? ==> var f := Split(entry, ':');
      r.value == (f[0], LegacyBind(f[1], if |f| == 3 then ModeField(f[2]) else NotGiven))
  {
    var j := Split(entry, ':');
    CountZero(entry, ':');
    if |j| < 2 then Err(InvalidArgument("volumes"))
    else Ok((j[0], LegacyBind(j[1], if |j| == 3 then ModeField(j[2]) else NotGiven)))
  }

  /**
   * All volume entries: every entry must hold a `:`, and `mountPoints` lists
   * the container paths in input order. `binds` is described by
   * `LegacyBindKeys` and `LegacyBindLastWins`.
   */
  function NormalizeLegacyVolumes(entries: seq<string>): (r: Result<LegacyVolumes>)
    ensures r.Ok? <==> forall i :: 0 <= i < |entries| ==> ':' in entries[i]
    ensures r.Err? ==> r.error == InvalidArgument("volumes")
    ensures r.Ok? ==> |r.value.mountPoints| == |entries|
    ensures r.Ok? ==> forall i :: 0 <= i < |entries| ==> r.value.mountPoints[i] == Split(entries[i], ':')[1]
  {
    match ParseAll(entries, ParseLegacyVolume)
    case Err(e) => Err(e)
    case Ok(parsed) =>
      Ok(LegacyVolumes(Collect(parsed), seq(|parsed|, i requires 0 <= i < |parsed| => parsed[i].1.bind)))
  }

  /** Every host path named by some entry is bound, and no other. */
  lemma LegacyBindKeys(entries: seq<string>, host: string)
    requires NormalizeLegacyVolumes(entries).Ok?
    ensures host in NormalizeLegacyVolumes(entries).value.binds <==>
      exists i :: 0 <= i < |entries| && Normalize.HostOf(entries[i]) == host
  {
    var parsed := ParseAll(entries, ParseLegacyVolume).value;
    CollectKeys(parsed, host);
    assert forall i :: 0 <= i < |entries| ==> parsed[i].0 == Normalize.HostOf(entries[i]);
  }

  /** A host path named by several entries takes the bind of the last one. */
  lemma LegacyBindLastWins(entries: seq<string>, i: int)
    requires NormalizeLegacyVolumes(entries).Ok?
    requires 0 <= i < |entries|
    requires forall j :: i < j < |entries| ==> Normalize.HostOf(entries[j]) != Normalize.HostOf(entries[i])
    ensures Normalize.HostOf(entries[i]) in NormalizeLegacyVolumes(entries).value.binds
    ensures NormalizeLegacyVolumes(entries).value.binds[Normalize.HostOf(entries[i])] == ParseLegacyVolume(entries[i]).value.1
  {
    var parsed := ParseAll(entries, ParseLegacyVolume).value;
    assert parsed[i] == ParseLegacyVolume(entries[i]).value;
    assert LastWrite(parsed, i);
    CollectLastWrite(parsed, i);
  }

  /**
   * Where the later normaliser accepts an entry, the earlier one accepts it
   * too, with the same host and container paths; it differs only in storing
   * the mode text instead of a flag.
   */
  lemma LegacyAcceptsMore(entry: string)
    requires Normalize.ParseVolume(entry).Ok?
    ensures ParseLegacyVolume(entry).Ok?
    ensures ParseLegacyVolume(entry).value.0 == Normalize.ParseVolume(entry).value.0
    ensures ParseLegacyVolume(entry).value.1.bind == Normalize.ParseVolume(entry).value.1.bind
    ensures Normalize.ParseVolume(entry).value.1.ro <==> ParseLegacyVolume(entry).value.1.ro == ModeField("ro")
  {
    CountZero(entry, ':');
  }

  /** An entry of four or more fields, which the later normaliser rejects, is kept here with no mode. */
  lemma FourFieldsAccepted(a: string, b: string, rest: string)
    requires ':' !in a && ':' !in b && ':' in rest
    ensures var entry := a + ":" + b + ":" + rest;
      ParseLegacyVolume(entry) == Ok((a, LegacyBind(b, NotGiven)))
      && Normalize.ParseVolume(entry).Err?
  {
    var entry := a + ":" + b + ":" + rest;
    assert entry == a + [':'] + (b + [':'] + rest);
    SplitAfterField(b, rest, ':');
    SplitAfterField(a, b + [':'] + rest, ':');
    CountZero(rest, ':');
    assert entry[|a|] == ':';
  }

  datatype LegacyRawParams = LegacyRawParams(
    name: Option<string>,
    image: Option<string>,
    command: Option<string>,
    latestImage: bool,
    volumes: Normalize.Raw,
    ports: Normalize.Raw)

  datatype LegacyParams = LegacyParams(
    name: Option<string>,
    image: Option<string>,
    command: Option<string>,
    latestImage: bool,
    binds: Option<map<string, LegacyBind>>,
    mountPoints: Option<seq<string>>,
    ports: Option<Normalize.Ports>)

  function OptLegacyVolumes(raw: Normalize.Raw): Result<Option<LegacyVolumes>>
  {
    if !Normalize.Truthy(raw) then Ok(None)
    else
      var entries :- Normalize.Entries(raw, "volumes");
      var v :- NormalizeLegacyVolumes(entries);
      Ok(Some(v))
  }

  /** `fix_parameters` of docker.py: volumes, then ports; the image is left as given. */
  function LegacyFixParameters(raw: LegacyRawParams): (r: Result<LegacyParams>)
    ensures r.Ok? <==> OptLegacyVolumes(raw.volumes).Ok? && Normalize.OptPorts(raw.ports).Ok?
    ensures OptLegacyVolumes(raw.volumes).Err? ==> r == Err(InvalidArgument("volumes"))
    ensures OptLegacyVolumes(raw.volumes).Ok? && Normalize.OptPorts(raw.ports).Err? ==> r == Err(InvalidArgument("ports"))
    ensures r.Ok? ==> r.value.image == raw.image && r.value.name == raw.name && r.value.latestImage == raw.latestImage
    ensures r.Ok? ==> r.value.command == raw.command
    ensures r.Ok? ==> (r.value.binds.Some? <==> Normalize.Truthy(raw.volumes))
                      && (r.value.mountPoints.Some? <==> Normalize.Truthy(raw.volumes))
    ensures r.Ok? && Normalize.Truthy(raw.volumes) ==>
      && r.value.binds == Some(NormalizeLegacyVolumes(Normalize.Entries(raw.volumes, "volumes").value).value.binds)
      && r.value.mountPoints == Some(NormalizeLegacyVolumes(Normalize.Entries(raw.volumes, "volumes").value).value.mountPoints)
    ensures r.Ok? ==> r.value.ports == Normalize.OptPorts(raw.ports).value
  {
    var vols :- OptLegacyVolumes(raw.volumes);
    var ports :- Normalize.OptPorts(raw.ports);
    Ok(LegacyParams(
      raw.name, raw.image, raw.command, raw.latestImage,
      if vols.Some? then Some(vols.value.binds) else None,
      if vols.Some? then Some(vols.value.mountPoints) else None,
      ports))
  }
}

=== FILE: legacy_recipes.dfy ===
/**
 * The desired-state recipes of the earlier docker.py. They find containers
 * with the running-first rule, never pull before creating, compare only the
 * image id (and only with `latest_image`), and guard `absent` against a
 * missing container.
 */
module LegacyRecipes {
  import opened Results
  import opened Engine
  import opened Lookup
  import ChangeLog
  import Normalize
  import LegacyNormalize
  import Recipes

  /** The parameters docker.py passes to `create_container`; it passes no environment. */
  function AsCreateParams(lp: LegacyNormalize.LegacyParams): Normalize.Params
  {
    Normalize.Params(lp.name, lp.image, lp.command, None, None, lp.mountPoints, lp.ports)
  }

  /**
   * docker.py's `ensure_same`: without `latest_image` every container
   * complies; with it the image is pulled and the container complies when it
   * runs the id the reference then names. A reference the engine cannot
   * resolve is an engine error.
   */
  function LegacyEnsureSame(s: State, lp: LegacyNormalize.LegacyParams, c: Container): (r: Result<(State, bool)>)
    requires Normalize.Given(lp.image)
    ensures !lp.latestImage ==> r == Ok((s, true))
    ensures lp.latestImage ==> (r.Ok? <==> lp.image.value in s.images || lp.image.value in s.registry)
    ensures r.Err? ==> r.error == EngineError("No such image")
    ensures r.Ok? ==> r.value.0.containers == s.containers
    ensures r.Ok? && lp.latestImage ==>
      lp.image.value in r.value.0.images && (r.value.1 <==> r.value.0.images[lp.image.value] == c.imageId)
  {
    if !lp.latestImage then Ok((s, true))
    else
      var pulled := Pull(s, lp.image.value);
      if lp.image.value !in pulled.images then Err(EngineError("No such image"))
      else Ok((pulled, pulled.images[lp.image.value] == c.imageId))
  }

  /** docker.py's `create_container`: no pull first, so an image not held locally fails. */
  function LegacyCreate(run: Recipes.Run, lp: LegacyNormalize.LegacyParams, id: string): (r: Result<(Recipes.Run, Container)>)
    requires Normalize.Given(lp.name) && Normalize.Given(lp.image)
    ensures r.Ok? <==> lp.image.value in run.engine.images
    ensures r.Err? ==> r.error == EngineError("No such image")
    ensures r.Ok? ==> r.value.0.engine.containers == run.engine.containers + [r.value.1]
    ensures r.Ok? ==> r.value.1.id == id && r.value.1.env == [] && !r.value.1.running
    ensures r.Ok? ==> r.value.1.names == ["/" + lp.name.value]
    ensures r.Ok? ==> r.value.0.log == run.log + [ChangeLog.Entry(ChangeLog.Created, id)]
    ensures r.Ok? && FindRunningFirst(run.engine, lp.name.value).0.None? ==>
      FindRunningFirst(r.value.0.engine, lp.name.value) == (Some(r.value.1), false)
  {
    var made :- Create(run.engine, AsCreateParams(lp), id);
    AppendedSoleMatch(run.engine, made.0, made.1, lp.name.value);
    Ok((Recipes.Logged(run, made.0, ChangeLog.Created, id), made.1))
  }

  /** docker.py's `remove_container`: no stop first; a container still found by the id is an error. */
  function LegacyRemoveContainer(run: Recipes.Run, id: string): (r: Result<Recipes.Run>)
    requires exists i :: 0 <= i < |run.engine.containers| && run.engine.containers[i].id == id
    ensures r.Err? ==> r.error == CouldNotRemove
    ensures r.Err? <==> exists x :: x in run.engine.containers && x.id != id && MatchesExactly(x, id)
    ensures r.Ok? ==> FindRunningFirst(r.value.engine, id).0.None?
    ensures r.Ok? ==> |r.value.engine.containers| < |run.engine.containers|
    ensures r.Ok? ==> forall x :: x in r.value.engine.containers ==> x.id != id
    ensures r.Ok? ==> r.value.engine.images == run.engine.images
    ensures r.Ok? ==> r.value.log == run.log + [ChangeLog.Entry(ChangeLog.Removed, id)]
  {
    var s := run.engine.(containers := Remove(run.engine.containers, id));
    assert (exists x :: x in run.engine.containers && x.id != id && MatchesExactly(x, id))
       <==> exists k :: 0 <= k < |s.containers| && MatchesExactly(s.containers[k], id) by {
      if exists k :: 0 <= k < |s.containers| && MatchesExactly(s.containers[k], id) {
        var k :| 0 <= k < |s.containers| && MatchesExactly(s.containers[k], id);
        assert s.containers[k] in s.containers;
      }
      if exists x :: x in run.engine.containers && x.id != id && MatchesExactly(x, id) {
        var x :| x in run.engine.containers && x.id != id && MatchesExactly(x, id);
        var k :| 0 <= k < |s.containers| && s.containers[k] == x;
      }
    }
    if FindRunningFirst(s, id).0.Some? then Err(CouldNotRemove)
    else Ok(Recipes.Logged(run, s, ChangeLog.Removed, id))
  }

  /**
   * docker.py's `ensure_absent`: stops the container if it runs and removes
   * it if there is one; a missing container is not an error.
   */
  function LegacyEnsureAbsent(run: Recipes.Run, lp: LegacyNormalize.LegacyParams): (r: Result<Recipes.Run>)
    ensures !Normalize.Given(lp.name) ==> r == Err(MissingParameter("name"))
    ensures Normalize.Given(lp.name) && FindRunningFirst(run.engine, lp.name.value).0.None? ==> r == Ok(run)
    ensures r.Ok? && FindRunningFirst(run.engine, lp.name.value).0.Some? ==>
      var c := FindRunningFirst(run.engine, lp.name.value).0.value;
      && |r.value.engine.containers| < |run.engine.containers|
      && (forall x :: x in r.value.engine.containers ==> x.id != c.id && x in run.engine.containers)
      && r.value.log == run.log
           + (if c.running then [ChangeLog.Entry(ChangeLog.Stopped, c.id)] else [])
           + [ChangeLog.Entry(ChangeLog.Removed, c.id)]
    ensures r.Ok? ==> r.value.engine.images == run.engine.images
    ensures Normalize.Given(lp.name) && FindRunningFirst(run.engine, lp.name.value).0.Some? ==>
      var c := FindRunningFirst(run.engine, lp.name.value).0.value;
      (r.Err? <==> exists x :: x in run.engine.containers && x.id != c.id && MatchesExactly(x, c.id))
  {
    if !Normalize.Given(lp.name) then Err(MissingParameter("name"))
    else
      var found := FindRunningFirst(run.engine, lp.name.value);
      match found.0
      case None => Ok(run)
      case Some(c) =>
        var stopped := if found.1 then Recipes.StopContainer(run, c) else run;
        var i :| 0 <= i < |run.engine.containers| && run.engine.containers[i] == c;
        assert stopped.engine.containers[i].id == c.id;
        Recipes.StopKeepsOthers(run, c, found.1);
        assert found.1 <==> c.running;
        LegacyRemoveContainer(stopped, c.id)
  }

  /** At most one listed container answers to the name or id. */
  predicate AtMostOneExact(cs: seq<Container>, name: string)
  {
    forall i, j :: 0 <= i < j < |cs| && MatchesExactly(cs[i], name) ==> !MatchesExactly(cs[j], name)
  }

  /**
   * When at most one container answers to the name, `absent` leaves none that
   * does, and running it again changes nothing.
   */
  lemma LegacyAbsentClears(run: Recipes.Run, lp: LegacyNormalize.LegacyParams)
    requires Normalize.Given(lp.name)
    requires AtMostOneExact(run.engine.containers, lp.name.value)
    requires LegacyEnsureAbsent(run, lp).Ok?
    ensures FindRunningFirst(LegacyEnsureAbsent(run, lp).value.engine, lp.name.value).0.None?
    ensures LegacyEnsureAbsent(LegacyEnsureAbsent(run, lp).value, lp) == LegacyEnsureAbsent(run, lp)
  {
    var name := lp.name.value;
    var r := LegacyEnsureAbsent(run, lp).value;
    var found := FindRunningFirst(run.engine, name);
    if found.0.Some? {
      var c := found.0.value;
      var i :| 0 <= i < |run.engine.containers| && run.engine.containers[i] == c;
      forall x | x in r.engine.containers
        ensures !MatchesExactly(x, name)
      {
        var k :| 0 <= k < |run.engine.containers| && run.engine.containers[k] == x;
        assert k != i;
        var a, b := if i < k then i else k, if i < k then k else i;
        assert !(MatchesExactly(run.engine.containers[a], name) && MatchesExactly(run.engine.containers[b], name));
      }
    }
  }

  /**
   * docker.py's `ensure_present`: a missing container is created (from a
   * local image only); one that fails `ensure_same` is removed through
   * `ensure_absent` and the recipe starts over, which ends because every
   * round removes a container. The container returned is in the engine.
   */
  function LegacyEnsurePresent(run: Recipes.Run, lp: LegacyNormalize.LegacyParams, id: string): (r: Result<(Recipes.Run, Container)>)
    decreases |run.engine.containers|
    ensures !Normalize.Given(lp.name) ==> r == Err(MissingParameter("name"))
    ensures Normalize.Given(lp.name) && !Normalize.Given(lp.image) ==> r == Err(MissingParameter("image"))
    ensures Normalize.Given(lp.name) && Normalize.Given(lp.image) && FindRunningFirst(run.engine, lp.name.value).0.None? ==>
      (r.Ok? <==> lp.image.value in run.engine.images)
    ensures r.Ok? ==> r.value.1 in r.value.0.engine.containers
    ensures Normalize.Given(lp.name) && Normalize.Given(lp.image) && !lp.latestImage
            && FindRunningFirst(run.engine, lp.name.value).0.Some? ==>
      r == Ok((run, FindRunningFirst(run.engine, lp.name.value).0.value))
    ensures r.Ok? ==> Normalize.Given(lp.name) && FindRunningFirst(r.value.0.engine, lp.name.value).0.Some?
    ensures r.Ok? ==> run.log <= r.value.0.log
    ensures r.Ok? && FindRunningFirst(run.engine, lp.name.value).0.None? ==>
      FindRunningFirst(r.value.0.engine, lp.name.value) == (Some(r.value.1), false)
  {
    if !Normalize.Given(lp.name) then Err(MissingParameter("name"))
    else if !Normalize.Given(lp.image) then Err(MissingParameter("image"))
    else
      match FindRunningFirst(run.engine, lp.name.value).0
      case None =>
        var made :- LegacyCreate(run, lp, id);
        Ok(made)
      case Some(c) =>
        var checked :- LegacyEnsureSame(run.engine, lp, c);
        var run1 := Recipes.Run(checked.0, run.log);
        if checked.1 then Ok((run1, c))
        else
          assert FindRunningFirst(run1.engine, lp.name.value) == FindRunningFirst(run.engine, lp.name.value);
          var cleared :- LegacyEnsureAbsent(run1, lp);
          LegacyEnsurePresent(cleared, lp, id)
  }

  /**
   * Without `latest_image`, a second `present` finds a container and keeps
   * it: nothing changes and nothing is logged.
   */
  lemma LegacyPresentIdempotent(run: Recipes.Run, lp: LegacyNormalize.LegacyParams, id: string, id2: string)
    requires !lp.latestImage
    requires LegacyEnsurePresent(run, lp, id).Ok?
    ensures var run1 := LegacyEnsurePresent(run, lp, id).value.0;
      LegacyEnsurePresent(run1, lp, id2).Ok? && LegacyEnsurePresent(run1, lp, id2).value.0 == run1
  {
  }

  /**
   * docker.py's `ensure_running`: ensures presence, then starts the container
   * unless a running container matches its id. Afterwards one does.
   */
  function LegacyEnsureRunning(run: Recipes.Run, lp: LegacyNormalize.LegacyParams, id: string): (r: Result<Recipes.Run>)
    ensures LegacyEnsurePresent(run, lp, id).Err? ==> r == Err(LegacyEnsurePresent(run, lp, id).error)
    ensures r.Ok? ==> FindRunningFirst(r.value.engine, LegacyEnsurePresent(run, lp, id).value.1.id).1
    ensures r.Ok? ==> var present := LegacyEnsurePresent(run, lp, id).value;
      && (FindRunningFirst(present.0.engine, present.1.id).1 ==> r.value == present.0)
      && (!FindRunningFirst(present.0.engine, present.1.id).1 ==>
            r.value.log == present.0.log + [ChangeLog.Entry(ChangeLog.Started, present.1.id)])
    ensures r.Ok? ==> run.log <= r.value.log
    ensures LegacyEnsurePresent(run, lp, id).Ok? ==> r.Ok?
  {
    var present :- LegacyEnsurePresent(run, lp, id);
    var c := present.1;
    if FindRunningFirst(present.0.engine, c.id).1 then Ok(present.0)
    else Ok(LegacyStart(present.0, c))
  }

  /** docker.py's start: the container's records are marked running and `Started` is logged. */
  function LegacyStart(run: Recipes.Run, c: Container): (r: Recipes.Run)
    requires c in run.engine.containers
    ensures FindRunningFirst(r.engine, c.id).1
    ensures forall name :: MatchesExactly(c, name) ==> FindRunningFirst(r.engine, name).1
    ensures r.log == run.log + [ChangeLog.Entry(ChangeLog.Started, c.id)]
  {
    var s := run.engine.(containers := UpdateById(run.engine.containers, c.id, MarkRunning));
    var i :| 0 <= i < |run.engine.containers| && run.engine.containers[i] == c;
    assert s.containers[i].running && s.containers[i].names == c.names && s.containers[i].id == c.id;
    assert forall name :: MatchesExactly(c, name) ==> MatchesExactly(s.containers[i], name);
    Recipes.Logged(run, s, ChangeLog.Started, c.id)
  }

  /**
   * Without `latest_image`, a second `running` run finds a running container
   * for the name and changes nothing.
   */
  lemma LegacyRunningIdempotent(run: Recipes.Run, lp: LegacyNormalize.LegacyParams, id: string, id2: string)
    requires !lp.latestImage
    requires LegacyEnsureRunning(run, lp, id).Ok?
    ensures LegacyEnsureRunning(LegacyEnsureRunning(run, lp, id).value, lp, id2) == LegacyEnsureRunning(run, lp, id)
  {
    var present := LegacyEnsurePresent(run, lp, id).value;
    var c := present.1;
    var run1 := LegacyEnsureRunning(run, lp, id).value;
    var name := lp.name.value;
    assert FindRunningFirst(present.0.engine, name).0 == Some(c);
    assert MatchesExactly(c, name);
    if FindRunningFirst(present.0.engine, c.id).1 {
      assert run1 == present.0;
      assert LegacyEnsurePresent(run1, lp, id2) == Ok((run1, c));
    } else {
      assert run1 == LegacyStart(present.0, c);
      assert FindRunningFirst(run1.engine, name).1;
      var c' := FindRunningFirst(run1.engine, name).0.value;
      assert LegacyEnsurePresent(run1, lp, id2) == Ok((run1, c'));
      var k :| 0 <= k < |run1.engine.containers| && run1.engine.containers[k] == c';
      assert c'.running && MatchesExactly(run1.engine.containers[k], c'.id);
    }
  }

  /**
   * docker.py's `ensure_stopped` as written: a missing container reaches a
   * misspelled exception name, which raises `NameError`.
   */
  function LegacyEnsureStoppedAsWritten(run: Recipes.Run, lp: LegacyNormalize.LegacyParams): (r: Result<Recipes.Run>)
    ensures Normalize.Given(lp.name) && FindRunningFirst(run.engine, lp.name.value).0.None? ==>
      r == Err(Crash("NameError"))
  {
    if !Normalize.Given(lp.name) then Err(MissingParameter("name"))
    else
      var found := FindRunningFirst(run.engine, lp.name.value);
      match found.0
      case None => Err(Crash("NameError"))
      case Some(c) => Ok(if found.1 then Recipes.StopContainer(run, c) else run)
  }

  /**
   * `ensure_stopped` with the exception it evidently meant: a missing
   * container is "Container not found". A running match is stopped and
   * logged; with no running match nothing happens.
   */
  function LegacyEnsureStopped(run: Recipes.Run, lp: LegacyNormalize.LegacyParams): (r: Result<Recipes.Run>)
    ensures !Normalize.Given(lp.name) ==> r == Err(MissingParameter("name"))
    ensures Normalize.Given(lp.name) && FindRunningFirst(run.engine, lp.name.value).0.None? ==> r == Err(ContainerNotFound)
    ensures Normalize.Given(lp.name) && FindRunningFirst(run.engine, lp.name.value).0.Some? ==> r.Ok?
    ensures r.Ok? && !FindRunningFirst(run.engine, lp.name.value).1 ==> r == Ok(run)
    ensures r.Ok? && FindRunningFirst(run.engine, lp.name.value).1 ==>
      && r.value.log == run.log + [ChangeLog.Entry(ChangeLog.Stopped, FindRunningFirst(run.engine, lp.name.value).0.value.id)]
      && forall x :: x in r.value.engine.containers && x.id == FindRunningFirst(run.engine, lp.name.value).0.value.id ==> !x.running
  {
    if !Normalize.Given(lp.name) then Err(MissingParameter("name"))
    else
      var found := FindRunningFirst(run.engine, lp.name.value);
      match found.0
      case None => Err(ContainerNotFound)
      case Some(c) => Ok(if found.1 then Recipes.StopContainer(run, c) else run)
  }

  /** The two differ exactly where no container matches. */
  lemma StoppedMisreportsMissing(run: Recipes.Run, lp: LegacyNormalize.LegacyParams)
    ensures Normalize.Given(lp.name) && FindRunningFirst(run.engine, lp.name.value).0.None? ==>
      LegacyEnsureStoppedAsWritten(run, lp) == Err(Crash("NameError")) && LegacyEnsureStopped(run, lp) == Err(ContainerNotFound)
    ensures !(Normalize.Given(lp.name) && FindRunningFirst(run.engine, lp.name.value).0.None?) ==>
      LegacyEnsureStoppedAsWritten(run, lp) == LegacyEnsureStopped(run, lp)
  {
  }

  /** docker.py's `restart`: only a running container is restarted, with one log entry. */
  function LegacyRestart(run: Recipes.Run, lp: LegacyNormalize.LegacyParams): (r: Result<Recipes.Run>)
    ensures !Normalize.Given(lp.name) ==> r == Err(MissingParameter("name"))
    ensures Normalize.Given(lp.name) && FindRunningFirst(run.engine, lp.name.value).0.None? ==> r == Err(ContainerNotFound)
    ensures (Normalize.Given(lp.name) && FindRunningFirst(run.engine, lp.name.value).0.Some?
             && !FindRunningFirst(run.engine, lp.name.value).1) ==> r == Err(ContainerNotRunning)
    ensures Normalize.Given(lp.name) && FindRunningFirst(run.engine, lp.name.value).1 ==> r.Ok?
    ensures r.Ok? ==> r.value.engine == run.engine && FindRunningFirst(run.engine, lp.name.value).1
    ensures r.Ok? ==> r.value.log == run.log + [ChangeLog.Entry(ChangeLog.Restarted, FindRunningFirst(run.engine, lp.name.value).0.value.id)]
  {
    if !Normalize.Given(lp.name) then Err(MissingParameter("name"))
    else
      var found := FindRunningFirst(run.engine, lp.name.value);
      match found.0
      case None => Err(ContainerNotFound)
      case Some(c) =>
        if !found.1 then Err(ContainerNotRunning)
        else Ok(Recipes.RestartContainer(run, c))
  }

  /** The states docker.py's `main` accepts. */
  const LegacyChoices: set<Recipes.Goal> :=
    {Recipes.Present, Recipes.Running, Recipes.Stopped, Recipes.Absent, Recipes.Restarted}

  /** The recipe docker.py's `main` runs for an accepted state; `stopped` is the recipe as written. */
  function LegacyDispatch(goal: Recipes.Goal, run: Recipes.Run, lp: LegacyNormalize.LegacyParams, id: string): Result<Recipes.Run>
  {
    match goal
    case Present => (var r :- LegacyEnsurePresent(run, lp, id); Ok(r.0))
    case Running => LegacyEnsureRunning(run, lp, id)
    case Stopped => LegacyEnsureStoppedAsWritten(run, lp)
    case Absent => LegacyEnsureAbsent(run, lp)
    case _ => LegacyRestart(run, lp)
  }

  /**
   * docker.py's `main`: a state outside its five choices is refused; the
   * parameters are normalised; the recipe runs from an empty log; the module
   * reports the first failure, or whether anything was logged and the log.
   */
  function LegacyRunModule(goal: Recipes.Goal, raw: LegacyNormalize.LegacyRawParams, engine: State, id: string): (o: Recipes.Outcome)
    ensures goal !in LegacyChoices ==> o == Recipes.Fail(InvalidArgument("state"))
    ensures goal in LegacyChoices && LegacyNormalize.LegacyFixParameters(raw).Err? ==>
      o == Recipes.Fail(LegacyNormalize.LegacyFixParameters(raw).error)
    ensures goal in LegacyChoices && LegacyNormalize.LegacyFixParameters(raw).Ok? ==>
      o == Recipes.Report(LegacyDispatch(goal, Recipes.Run(engine, []), LegacyNormalize.LegacyFixParameters(raw).value, id))
    ensures o.Exit? ==> (o.changed <==> o.msg != ChangeLog.UpToDate)
  {
    if goal !in LegacyChoices then Recipes.Fail(InvalidArgument("state"))
    else
      match LegacyNormalize.LegacyFixParameters(raw)
      case Err(e) => Recipes.Fail(e)
      case Ok(lp) =>
        Recipes.Report(LegacyDispatch(goal, Recipes.Run(engine, []), lp, id))
  }

  /**
   * With at most one container answering to the name, running the module
   * with `absent` a second time reports "up to date" and no change.
   */
  lemma LegacyModuleAbsentSettles(raw: LegacyNormalize.LegacyRawParams, engine: State, id: string, id2: string)
    requires LegacyNormalize.LegacyFixParameters(raw).Ok?
    requires Normalize.Given(LegacyNormalize.LegacyFixParameters(raw).value.name)
    requires AtMostOneExact(engine.containers, LegacyNormalize.LegacyFixParameters(raw).value.name.value)
    requires LegacyEnsureAbsent(Recipes.Run(engine, []), LegacyNormalize.LegacyFixParameters(raw).value).Ok?
    ensures var engine1 := LegacyEnsureAbsent(Recipes.Run(engine, []), LegacyNormalize.LegacyFixParameters(raw).value).value.engine;
      LegacyRunModule(Recipes.Absent, raw, engine1, id2) == Recipes.Exit(false, ChangeLog.UpToDate)
  {
    var lp := LegacyNormalize.LegacyFixParameters(raw).value;
    var engine1 := LegacyEnsureAbsent(Recipes.Run(engine, []), lp).value.engine;
    LegacyAbsentClears(Recipes.Run(engine, []), lp);
    assert LegacyEnsureAbsent(Recipes.Run(engine1, []), lp) == Ok(Recipes.Run(engine1, []));
  }
}

=== FILE: lookup.dfy ===
/**
 * The two rules for finding the container a name refers to: dockerimp.py
 * matches on the name or an id prefix and treats two matches as an error;
 * docker.py matches on the name or the full id, searches running containers
 * first, and takes the first match.
 */
module Lookup {
  import opened Results
  import opened PyStr
  import opened Engine

  // ------------------------------------------------------------ dockerimp.py

  /** The name is the container's first name, or (for more than 9 characters) a prefix of its id. */
  predicate Matches(c: Container, name: string)
  {
    FirstName(c) == "/" + name || (|name| > 9 && StartsWith(c.id, name))
  }

  /** The matching containers, in listing order. */
  function Matching(cs: seq<Container>, name: string): seq<Container>
  {
    if |cs| == 0 then []
    else (if Matches(cs[0], name) then [cs[0]] else []) + Matching(cs[1..], name)
  }

  /** Two distinct positions in the listing match. */
  ghost predicate TwoMatch(cs: seq<Container>, name: string)
  {
    exists i, j :: 0 <= i < j < |cs| && Matches(cs[i], name) && Matches(cs[j], name)
  }

  lemma {:induction false} MatchingFacts(cs: seq<Container>, name: string)
    ensures |Matching(cs, name)| == 0 <==> forall i :: 0 <= i < |cs| ==> !Matches(cs[i], name)
    ensures |Matching(cs, name)| >= 2 <==> TwoMatch(cs, name)
    ensures |Matching(cs, name)| >= 1 ==> exists i :: 0 <= i < |cs| && cs[i] == Matching(cs, name)[0] && Matches(cs[i], name)
  {
    if |cs| > 0 {
      var rest := cs[1..];
      MatchingFacts(rest, name);
      assert forall i :: 1 <= i < |cs| ==> cs[i] == rest[i - 1];
      if TwoMatch(cs, name) {
        var i, j :| 0 <= i < j < |cs| && Matches(cs[i], name) && Matches(cs[j], name);
        if i > 0 {
          assert Matches(rest[i - 1], name) && Matches(rest[j - 1], name);
        } else {
          assert Matches(rest[j - 1], name);
        }
      }
      if Matches(cs[0], name) && |Matching(rest, name)| >= 1 {
        var j :| 0 <= j < |rest| && Matches(rest[j], name);
        assert Matches(cs[j + 1], name);
      }
      if TwoMatch(rest, name) {
        var i, j :| 0 <= i < j < |rest| && Matches(rest[i], name) && Matches(rest[j], name);
        assert Matches(cs[i + 1], name) && Matches(cs[j + 1], name);
      }
      if |Matching(rest, name)| >= 1 && !Matches(cs[0], name) {
        var i :| 0 <= i < |rest| && rest[i] == Matching(rest, name)[0] && Matches(rest[i], name);
        assert cs[i + 1] == rest[i];
      }
    }
  }

  /**
   * `find_container`: more than one match is an error, no match is `None`,
   * and one match is that container.
   */
  function FindContainer(s: State, name: string): (r: Result<Option<Container>>)
    ensures r.Err? ==> r.error == AmbiguousContainer
    ensures r.Err? <==> TwoMatch(s.containers, name)
    ensures r == Ok(None) <==> forall i :: 0 <= i < |s.containers| ==> !Matches(s.containers[i], name)
    ensures r.Ok? && r.value.Some? ==>
      exists i :: 0 <= i < |s.containers| && s.containers[i] == r.value.value && Matches(r.value.value, name)
  {
    var c := Matching(s.containers, name);
    MatchingFacts(s.containers, name);
    if |c| > 1 then Err(AmbiguousContainer)
    else if |c| == 1 then Ok(Some(c[0]))
    else Ok(None)
  }

  /** A single match is found, whichever position it is in. */
  lemma FindUnique(s: State, name: string, i: int)
    requires 0 <= i < |s.containers| && Matches(s.containers[i], name)
    requires forall j :: 0 <= j < |s.containers| && j != i ==> !Matches(s.containers[j], name)
    ensures FindContainer(s, name) == Ok(Some(s.containers[i]))
  {
    assert forall a, b :: 0 <= a < b < |s.containers| ==>
      !(Matches(s.containers[a], name) && Matches(s.containers[b], name));
    assert FindContainer(s, name) != Ok(None);
  }

  /** The found container is the only match. */
  lemma FoundIsOnlyMatch(s: State, name: string) returns (i: int)
    requires FindContainer(s, name).Ok? && FindContainer(s, name).value.Some?
    ensures 0 <= i < |s.containers| && s.containers[i] == FindContainer(s, name).value.value
    ensures Matches(s.containers[i], name)
    ensures forall j :: 0 <= j < |s.containers| && j != i ==> !Matches(s.containers[j], name)
  {
    i :| 0 <= i < |s.containers| && s.containers[i] == FindContainer(s, name).value.value && Matches(s.containers[i], name);
    forall j | 0 <= j < |s.containers| && j != i
      ensures !Matches(s.containers[j], name)
    {
      assert !TwoMatch(s.containers, name);
      var a, b := if i < j then i else j, if i < j then j else i;
      assert !(Matches(s.containers[a], name) && Matches(s.containers[b], name));
    }
  }

  /** Stopping or starting a container changes no name or id, so the lookup finds the updated record. */
  lemma FindAfterUpdate(s: State, name: string, id: string, ch: Change)
    requires FindContainer(s, name).Ok? && FindContainer(s, name).value.Some?
    ensures var c := FindContainer(s, name).value.value;
      FindContainer(s.(containers := UpdateById(s.containers, id, ch)), name)
        == Ok(Some(if c.id == id then Apply(ch, c) else c))
  {
    var i := FoundIsOnlyMatch(s, name);
    var s' := s.(containers := UpdateById(s.containers, id, ch));
    assert forall j :: 0 <= j < |s.containers| ==> (Matches(s'.containers[j], name) <==> Matches(s.containers[j], name));
    FindUnique(s', name, i);
  }

  /** A container added when nothing matched is the one found afterwards, if it matches. */
  lemma FindAfterAppend(s: State, name: string, c: Container)
    requires FindContainer(s, name) == Ok(None)
    requires Matches(c, name)
    ensures FindContainer(s.(containers := s.containers + [c]), name) == Ok(Some(c))
  {
    var s' := s.(containers := s.containers + [c]);
    assert forall j :: 0 <= j < |s.containers| ==> s'.containers[j] == s.containers[j];
    FindUnique(s', name, |s.containers|);
  }

  // --------------------------------------------------------------- docker.py

  /** The name is the container's first name, or its full id. */
  predicate MatchesExactly(c: Container, name: string)
  {
    FirstName(c) == "/" + name || c.id == name
  }

  /** Listed by `containers(all=runningOnly == False)` and matching. */
  predicate Eligible(c: Container, name: string, runningOnly: bool)
  {
    MatchesExactly(c, name) && (c.running || !runningOnly)
  }

  /** The first eligible container in listing order (`c[0]`). */
  function FirstMatch(cs: seq<Container>, name: string, runningOnly: bool): (r: Option<Container>)
    ensures r.None? <==> forall i :: 0 <= i < |cs| ==> !Eligible(cs[i], name, runningOnly)
    ensures r.Some? ==> exists i :: 0 <= i < |cs| && cs[i] == r.value && Eligible(cs[i], name, runningOnly)
                          && forall j :: 0 <= j < i ==> !Eligible(cs[j], name, runningOnly)
  {
    if |cs| == 0 then None
    else if Eligible(cs[0], name, runningOnly) then Some(cs[0])
    else
      var r := FirstMatch(cs[1..], name, runningOnly);
      assert forall i :: 1 <= i < |cs| ==> cs[i] == cs[1..][i - 1];
      assert r.Some? ==> exists i :: 1 <= i < |cs| && cs[i] == r.value && Eligible(cs[i], name, runningOnly)
                          && forall j :: 0 <= j < i ==> !Eligible(cs[j], name, runningOnly) by {
        if r.Some? {
          var i :| 0 <= i < |cs[1..]| && cs[1..][i] == r.value && Eligible(cs[1..][i], name, runningOnly)
                   && forall j :: 0 <= j < i ==> !Eligible(cs[1..][j], name, runningOnly);
          assert forall j :: 1 <= j < i + 1 ==> cs[j] == cs[1..][j - 1];
        }
      }
      r
  }

  /**
   * docker.py's `find_container`: a match among running containers is
   * returned with `True`; otherwise the first match among all containers with
   * `False`; otherwise `(None, False)`.
   */
  function FindRunningFirst(s: State, name: string): (r: (Option<Container>, bool))
    ensures r.1 ==> r.0.Some? && r.0.value.running && MatchesExactly(r.0.value, name)
    ensures r.1 <==> exists i :: 0 <= i < |s.containers| && s.containers[i].running && MatchesExactly(s.containers[i], name)
    ensures r.0.Some? && !r.1 ==> !r.0.value.running && MatchesExactly(r.0.value, name)
    ensures r.0.Some? ==> r.0.value in s.containers
    ensures r.0.None? <==> forall i :: 0 <= i < |s.containers| ==> !MatchesExactly(s.containers[i], name)
    ensures r.0.Some? ==> exists i :: 0 <= i < |s.containers| && s.containers[i] == r.0.value
                            && Eligible(s.containers[i], name, r.1)
                            && forall j :: 0 <= j < i ==> !Eligible(s.containers[j], name, r.1)
  {
    match FirstMatch(s.containers, name, true)
    case Some(c) => (Some(c), true)
    case None =>
      match FirstMatch(s.containers, name, false)
      case Some(c) => (Some(c), false)
      case None => (None, false)
  }

  /**
   * A stopped container appended to a listing in which nothing answers to the
   * name is what `find_container` then returns, as the non-running match.
   */
  lemma AppendedSoleMatch(s: State, t: State, c: Container, name: string)
    requires t.containers == s.containers + [c]
    requires MatchesExactly(c, name) && !c.running
    ensures FindRunningFirst(s, name).0.None? ==> FindRunningFirst(t, name) == (Some(c), false)
  {
    if FindRunningFirst(s, name).0.None? {
      assert Eligible(t.containers[|s.containers|], name, false);
      assert forall k :: 0 <= k < |s.containers| ==> t.containers[k] == s.containers[k];
    }
  }
}

=== FILE: normalize.dfy ===
/**
 * The parameter normaliser of dockerimp.py (`ContainerManager.fix_parameters`):
 * loosely typed module parameters become the structured values the engine
 * calls take.
 */
module Normalize {
  import opened Results
  import opened PyStr
  import opened PyDict

  /**
   * A module parameter as the automation framework hands it over: unset, a
   * string, a list of strings, a dict (its items in iteration order), or a
   * truthy value of some other type. A falsy value of another type behaves
   * like `Unset`.
   */
  datatype Raw = Unset | Str(s: string) | List(items: seq<string>) | Dict(pairs: seq<(string, string)>) | OtherType

  /** Python truthiness of a parameter: `if params.get(x):`. */
  predicate Truthy(raw: Raw)
  {
    match raw
    case Unset => false
    case Str(s) => s != ""
    case List(items) => items != []
    case Dict(pairs) => pairs != []
    case OtherType => true
  }

  /** An optional string parameter that is set and non-empty. */
  predicate Given(s: Option<string>)
  {
    s.Some? && s.value != ""
  }

  /** A `str` is split on commas, a `list` is taken as is, anything else is invalid. */
  function Entries(raw: Raw, param: string): (r: Result<seq<string>>)
    ensures r.Ok? <==> raw.Str? || raw.List?
    ensures raw.Str? ==> r == Ok(Split(raw.s, ','))
    ensures raw.List? ==> r == Ok(raw.items)
    ensures r.Err? ==> r.error == InvalidArgument(param)
  {
    match raw
    case Str(s) => Ok(Split(s, ','))
    case List(items) => Ok(items)
    case _ => Err(InvalidArgument(param))
  }

  // ---------------------------------------------------------------- volumes

  /** Where a host path is mounted, and whether read-only. */
  datatype Bind = Bind(bind: string, ro: bool)

  datatype Volumes = Volumes(binds: map<string, Bind>, mountPoints: seq<string>)

  function ModeText(ro: bool): string
  {
    if ro then "ro" else "rw"
  }

  /** The `host:container:ro|rw` string the engine reports for a bind. */
  function RenderBind(host: string, b: Bind): string
  {
    Join([host, b.bind, ModeText(b.ro)], ':')
  }

  /** One volume entry `host:container[:ro|rw]`, as `(host, {bind, ro})`. */
  function ParseVolume(entry: string): (r: Result<(string, Bind)>)
    ensures var f := Split(entry, ':');
      && (r.Ok? <==> |f| == 2 || (|f| == 3 && (f[2] == "ro" || f[2] == "rw")))
      && (r.Ok? ==> r.value == (f[0], Bind(f[1], |f| == 3 && f[2] == "ro")))
      && (r.Err? ==> r.error == InvalidArgument("volumes"))
  {
    var f := Split(entry, ':');
    if |f| != 2 && |f| != 3 then Err(InvalidArgument("volumes"))
    else if |f| == 3 && f[2] != "ro" && f[2] != "rw" then Err(InvalidArgument("volumes"))
    else Ok((f[0], Bind(f[1], |f| == 3 && f[2] == "ro")))
  }

  /** An entry with no `:` at all, or with more than two, is rejected. */
  lemma VolumeFieldCount(entry: string)
    requires Count(entry, ':') == 0 || Count(entry, ':') > 2
    ensures ParseVolume(entry) == Err(InvalidArgument("volumes"))
  {
  }

  /** Parsing the bind string the engine reports gives back the bind. */
  lemma VolumeRoundTrip(host: string, b: Bind)
    requires ':' !in host && ':' !in b.bind
    ensures ParseVolume(RenderBind(host, b)) == Ok((host, b))
  {
    SplitJoin([host, b.bind, ModeText(b.ro)], ':');
  }

  /** The host path of a volume entry: `entry.split(":")[0]`. */
  function HostOf(entry: string): string
  {
    Split(entry, ':')[0]
  }

  /**
   * All volume entries: every entry must parse, and `mountPoints` lists the
   * container paths in input order. `binds` is described by
   * `VolumeBindKeys` and `VolumeBindLastWins`.
   */
  function NormalizeVolumes(entries: seq<string>): (r: Result<Volumes>)
    ensures r.Ok? <==> forall i :: 0 <= i < |entries| ==> ParseVolume(entries[i]).Ok?
    ensures r.Err? ==> r.error == InvalidArgument("volumes")
    ensures r.Ok? ==> |r.value.mountPoints| == |entries|
    ensures r.Ok? ==> forall i :: 0 <= i < |entries| ==> r.value.mountPoints[i] == Split(entries[i], ':')[1]
  {
    match ParseAll(entries, ParseVolume)
    case Err(e) => Err(e)
    case Ok(parsed) =>
      Ok(Volumes(Collect(parsed), seq(|parsed|, i requires 0 <= i < |parsed| => parsed[i].1.bind)))
  }

  /** Every host path named by some entry is bound, and no other. */
  lemma VolumeBindKeys(entries: seq<string>, host: string)
    requires NormalizeVolumes(entries).Ok?
    ensures host in NormalizeVolumes(entries).value.binds <==> exists i :: 0 <= i < |entries| && HostOf(entries[i]) == host
  {
    var parsed := ParseAll(entries, ParseVolume).value;
    CollectKeys(parsed, host);
    assert forall i :: 0 <= i < |entries| ==> parsed[i].0 == HostOf(entries[i]);
  }

  /** A host path named by several entries takes the bind of the last one. */
  lemma VolumeBindLastWins(entries: seq<string>, i: int)
    requires NormalizeVolumes(entries).Ok?
    requires 0 <= i < |entries|
    requires forall j :: i < j < |entries| ==> HostOf(entries[j]) != HostOf(entries[i])
    ensures HostOf(entries[i]) in NormalizeVolumes(entries).value.binds
    ensures NormalizeVolumes(entries).value.binds[HostOf(entries[i])] == ParseVolume(entries[i]).value.1
  {
    var parsed := ParseAll(entries, ParseVolume).value;
    assert parsed[i] == ParseVolume(entries[i]).value;
    assert LastWrite(parsed, i);
    CollectLastWrite(parsed, i);
  }

  // ------------------------------------------------------------------ image

  /** The reference carries a tag: some `:` comes after the last `/`. */
  ghost predicate HasTag(image: string)
  {
    exists i :: 0 <= i < |image| && image[i] == ':' && forall j :: i < j < |image| ==> image[j] != '/'
  }

  /** The source's test: the last `/`-segment, split on `:`, has more than one field. */
  predicate TagInLastSegment(image: string)
  {
    |Split(LastField(image, '/'), ':')| != 1
  }

  /** The source's test agrees with the reference definition: a registry port before a `/` is not a tag. */
  lemma TagRule(image: string)
    ensures TagInLastSegment(image) <==> HasTag(image)
  {
    var k := LastFieldIsSuffix(image, '/');
    var last := LastField(image, '/');
    CountZero(last, ':');
    assert forall j :: 0 <= j < |last| ==> last[j] == image[k + j];
    if ':' in last {
      var j :| 0 <= j < |last| && last[j] == ':';
      assert image[k + j] == ':';
      assert forall m :: k + j < m < |image| ==> image[m] == last[m - k];
    }
    if HasTag(image) {
      var i :| 0 <= i < |image| && image[i] == ':' && forall j :: i < j < |image| ==> image[j] != '/';
      if i < k {
        assert image[k - 1] == '/';
      } else {
        assert last[i - k] == ':';
      }
    }
  }

  /** Python's `"{0}:latest".format(image)` when the reference has no tag. */
  function DefaultTag(image: string): (r: string)
    ensures TagInLastSegment(image) ==> r == image
    ensures !TagInLastSegment(image) ==> r == image + ":latest"
  {
    if |Split(LastField(image, '/'), ':')| == 1 then image + ":latest" else image
  }

  /** After defaulting, the reference always carries a tag. */
  lemma DefaultTagTags(image: string)
    ensures TagInLastSegment(DefaultTag(image))
  {
    if !TagInLastSegment(image) {
      LastFieldAppend(image, ":latest", '/');
      CountZero(LastField(image + ":latest", '/'), ':');
      assert LastField(image + ":latest", '/')[|LastField(image, '/')|] == ':';
    }
  }

  /** Defaulting the tag twice is the same as defaulting it once. */
  lemma DefaultTagIdempotent(image: string)
    ensures DefaultTag(DefaultTag(image)) == DefaultTag(image)
  {
    DefaultTagTags(image);
  }

  // ------------------------------------------------------------------ ports

  /** An exposed container port, with the protocol when one was written. */
  datatype ExposedPort = Bare(port: string) | WithProtocol(port: string, protocol: string)

  /** What a container port is bound to on the host. */
  datatype PortBinding =
    | Unbound                                // `None`
    | HostPort(hostPort: string)             // `host_port`
    | IpOnly(ip: string)                     // `(bind_ip,)`
    | IpAndPort(ip: string, hostPort: string) // `(bind_ip, host_port)`

  datatype PortSpec = PortSpec(exposed: ExposedPort, key: string, binding: PortBinding)

  datatype Ports = Ports(exposed: seq<ExposedPort>, bindings: map<string, PortBinding>)

  /** The binding key of an exposed port. */
  function KeyOf(p: ExposedPort): string
  {
    match p
    case Bare(port) => port
    case WithProtocol(port, protocol) => port + "/" + protocol
  }

  /** A port entry is well formed: 2 or 3 `:`-fields, the last with at most 2 `/`-fields. */
  predicate WellFormedPort(entry: string)
  {
    var f := Split(entry, ':');
    (|f| == 2 || |f| == 3) && |Split(f[|f| - 1], '/')| <= 2
  }

  /** One port entry `[ip:]host:container[/protocol]`. */
  function ParsePort(entry: string): (r: Result<PortSpec>)
    ensures r.Ok? <==> WellFormedPort(entry)
    ensures r.Err? ==> r.error == InvalidArgument("ports")
    ensures r.Ok? ==> r.value.key == KeyOf(r.value.exposed) == LastField(entry, ':')
    ensures r.Ok? ==> (r.value.exposed.WithProtocol? <==> '/' in LastField(entry, ':'))
    ensures r.Ok? ==> var f := Split(entry, ':');
      r.value.binding ==
        if |f| == 3 && f[0] != "" then
          (if f[1] != "" then IpAndPort(f[0], f[1]) else IpOnly(f[0]))
        else
          var host := f[|f| - 2];
          if host != "" then HostPort(host) else Unbound
  {
    var values := Split(entry, ':');
    if |values| != 2 && |values| != 3 then Err(InvalidArgument("ports"))
    else
      var portAndProt := Split(values[|values| - 1], '/');
      if |portAndProt| > 2 then Err(InvalidArgument("ports"))
      else
        CountZero(values[|values| - 1], '/');
        var exposed := if |portAndProt| == 2 then WithProtocol(portAndProt[0], portAndProt[1]) else Bare(portAndProt[0]);
        var key := if |portAndProt| == 2 then portAndProt[0] + "/" + portAndProt[1] else portAndProt[0];
        assert |portAndProt| == 2 ==> Join(portAndProt, '/') == portAndProt[0] + "/" + portAndProt[1];
        var hostPort := if |values| == 2 then values[0] else values[1];
        var bindIp := if |values| == 3 then values[0] else "";
        var binding :=
          if bindIp != "" then (if hostPort != "" then IpAndPort(bindIp, hostPort) else IpOnly(bindIp))
          else if hostPort != "" then HostPort(hostPort) else Unbound;
        Ok(PortSpec(exposed, key, binding))
  }

  function PortPairs(specs: seq<PortSpec>): (pairs: seq<(string, PortBinding)>)
    ensures |pairs| == |specs|
    ensures forall i :: 0 <= i < |specs| ==> pairs[i] == (specs[i].key, specs[i].binding)
  {
    seq(|specs|, i requires 0 <= i < |specs| => (specs[i].key, specs[i].binding))
  }

  /**
   * All port entries: every entry must be well formed, and `exposed` lists
   * the exposed ports in input order. `bindings` is described by
   * `PortBindingKeys` and `PortBindingLastWins`.
   */
  function NormalizePorts(entries: seq<string>): (r: Result<Ports>)
    ensures r.Ok? <==> forall i :: 0 <= i < |entries| ==> WellFormedPort(entries[i])
    ensures r.Err? ==> r.error == InvalidArgument("ports")
    ensures r.Ok? ==> |r.value.exposed| == |entries|
    ensures r.Ok? ==> forall i :: 0 <= i < |entries| ==> KeyOf(r.value.exposed[i]) == LastField(entries[i], ':')
    ensures r.Ok? ==> forall i :: 0 <= i < |entries| ==>
      (r.value.exposed[i].WithProtocol? <==> '/' in LastField(entries[i], ':'))
  {
    match ParseAll(entries, ParsePort)
    case Err(e) => Err(e)
    case Ok(specs) =>
      Ok(Ports(seq(|specs|, i requires 0 <= i < |specs| => specs[i].exposed), Collect(PortPairs(specs))))
  }

  /** The binding keys are exactly the container-side fields of the entries. */
  lemma PortBindingKeys(entries: seq<string>, key: string)
    requires NormalizePorts(entries).Ok?
    ensures key in NormalizePorts(entries).value.bindings <==> exists i :: 0 <= i < |entries| && LastField(entries[i], ':') == key
  {
    var specs := ParseAll(entries, ParsePort).value;
    CollectKeys(PortPairs(specs), key);
  }

  /** A key given by several entries takes the binding of the last one. */
  lemma PortBindingLastWins(entries: seq<string>, i: int)
    requires NormalizePorts(entries).Ok?
    requires 0 <= i < |entries|
    requires forall j :: i < j < |entries| ==> LastField(entries[j], ':') != LastField(entries[i], ':')
    ensures LastField(entries[i], ':') in NormalizePorts(entries).value.bindings
    ensures NormalizePorts(entries).value.bindings[LastField(entries[i], ':')] == ParsePort(entries[i]).value.binding
  {
    var specs := ParseAll(entries, ParsePort).value;
    var pairs := PortPairs(specs);
    assert forall j :: 0 <= j < |entries| ==> specs[j] == ParsePort(entries[j]).value;
    assert forall j :: 0 <= j < |entries| ==> pairs[j].0 == LastField(entries[j], ':');
    assert LastWrite(pairs, i);
    CollectLastWrite(pairs, i);
  }

  // ------------------------------------------------------------ environment

  /** The synthetic variable that records which variables the module manages. */
  const ManagedEnvs := "ANSIBLE_MANAGED_ENVS"

  /** The variable name of a `K=V` entry: `entry.split("=")[0]`. */
  function EnvKey(entry: string): (k: string)
    ensures '=' !in k
  {
    Split(entry, '=')[0]
  }

  function EnvKeys(entries: seq<string>): (keys: seq<string>)
    ensures |keys| == |entries|
    ensures forall i :: 0 <= i < |entries| ==> keys[i] == EnvKey(entries[i])
  {
    seq(|entries|, i requires 0 <= i < |entries| => EnvKey(entries[i]))
  }

  /** `ANSIBLE_MANAGED_ENVS=<keys joined by ':'>`. */
  function MarkerEntry(keys: seq<string>): string
  {
    ManagedEnvs + "=" + Join(keys, ':')
  }

  /** `K=V` strings from a comma-separated string, a list, or a dict. */
  function EnvEntries(raw: Raw): (r: Result<seq<string>>)
    ensures r.Ok? <==> raw.Str? || raw.List? || raw.Dict?
    ensures r.Err? ==> r.error == InvalidArgument("env")
    ensures raw.Dict? ==> (r.Ok? && |r.value| == |raw.pairs|
      && forall i :: 0 <= i < |raw.pairs| ==> r.value[i] == raw.pairs[i].0 + "=" + raw.pairs[i].1)
  {
    match raw
    case Str(s) => Ok(Split(s, ','))
    case List(items) => Ok(items)
    case Dict(pairs) => Ok(seq(|pairs|, i requires 0 <= i < |pairs| => pairs[i].0 + "=" + pairs[i].1))
    case _ => Err(InvalidArgument("env"))
  }

  /** A dict entry `K=V` has key `K` when `K` itself holds no `=`. */
  lemma DictEntryKey(k: string, v: string)
    requires '=' !in k
    ensures EnvKey(k + "=" + v) == k
  {
    SplitAfterField(k, v, '=');
    assert k + "=" + v == k + ['='] + v;
  }

  /** The entries, followed by exactly one marker naming every key. */
  function NormalizeEnv(entries: seq<string>): (env: seq<string>)
    ensures |env| == |entries| + 1
    ensures env[..|entries|] == entries
    ensures env[|entries|] == MarkerEntry(EnvKeys(entries))
  {
    entries + [MarkerEntry(EnvKeys(entries))]
  }

  /** The marker's own key is `ANSIBLE_MANAGED_ENVS`. */
  lemma MarkerKey(keys: seq<string>)
    requires forall i :: 0 <= i < |keys| ==> '=' !in keys[i]
    ensures EnvKey(MarkerEntry(keys)) == ManagedEnvs
  {
    JoinAvoids(keys, ':', '=');
    SplitAfterField(ManagedEnvs, Join(keys, ':'), '=');
    assert MarkerEntry(keys) == ManagedEnvs + ['='] + Join(keys, ':');
  }

  /** Joining parts that avoid `c` with a separator other than `c` avoids `c`. */
  lemma {:induction false} JoinAvoids(parts: seq<string>, sep: char, c: char)
    requires sep != c
    requires forall i :: 0 <= i < |parts| ==> c !in parts[i]
    ensures c !in Join(parts, sep)
  {
    if |parts| > 1 {
      JoinAvoids(parts[1..], sep, c);
    }
  }

  /** The normalised list's keys are the input keys followed by the marker's key. */
  lemma NormalizedEnvKeys(entries: seq<string>)
    ensures EnvKeys(NormalizeEnv(entries)) == EnvKeys(entries) + [ManagedEnvs]
  {
    MarkerKey(EnvKeys(entries));
  }

  /**
   * The value of a marker, read back the way the compliance check reads it
   * (`entry.split("=")[1].split(":")`), gives back the keys it was made from,
   * provided no key holds a `:`.
   */
  lemma MarkerRoundTrip(keys: seq<string>)
    requires |keys| >= 1
    requires forall i :: 0 <= i < |keys| ==> '=' !in keys[i] && ':' !in keys[i]
    ensures |Split(MarkerEntry(keys), '=')| == 2
    ensures Split(Split(MarkerEntry(keys), '=')[1], ':') == keys
  {
    JoinAvoids(keys, ':', '=');
    SplitAfterField(ManagedEnvs, Join(keys, ':'), '=');
    assert MarkerEntry(keys) == ManagedEnvs + ['='] + Join(keys, ':');
    SplitWithoutSep(Join(keys, ':'), '=');
    SplitJoin(keys, ':');
  }

  // ------------------------------------------------------------- parameters

  /** The module parameters the normaliser reads. */
  datatype RawParams = RawParams(
    name: Option<string>,
    image: Option<string>,
    command: Option<string>,
    env: Raw,
    volumes: Raw,
    ports: Raw)

  /** The normalised parameters; `None` where the source leaves the key unset. */
  datatype Params = Params(
    name: Option<string>,
    image: Option<string>,
    command: Option<string>,
    environment: Option<seq<string>>,
    binds: Option<map<string, Bind>>,
    mountPoints: Option<seq<string>>,
    ports: Option<Ports>)

  function OptVolumes(raw: Raw): Result<Option<Volumes>>
  {
    if !Truthy(raw) then Ok(None)
    else
      var entries :- Entries(raw, "volumes");
      var v :- NormalizeVolumes(entries);
      Ok(Some(v))
  }

  function OptPorts(raw: Raw): Result<Option<Ports>>
  {
    if !Truthy(raw) then Ok(None)
    else
      var entries :- Entries(raw, "ports");
      var p :- NormalizePorts(entries);
      Ok(Some(p))
  }

  function OptEnv(raw: Raw): Result<Option<seq<string>>>
  {
    if !Truthy(raw) then Ok(None)
    else
      var entries :- EnvEntries(raw);
      Ok(Some(NormalizeEnv(entries)))
  }

  /**
   * `fix_parameters`: volumes, then the image, then ports, then the
   * environment; the first malformed parameter fails the whole call.
   */
  function FixParameters(raw: RawParams): (r: Result<Params>)
    ensures r.Ok? <==> OptVolumes(raw.volumes).Ok? && OptPorts(raw.ports).Ok? && OptEnv(raw.env).Ok?
    ensures OptVolumes(raw.volumes).Err? ==> r == Err(InvalidArgument("volumes"))
    ensures OptVolumes(raw.volumes).Ok? && OptPorts(raw.ports).Err? ==> r == Err(InvalidArgument("ports"))
    ensures OptVolumes(raw.volumes).Ok? && OptPorts(raw.ports).Ok? && OptEnv(raw.env).Err? ==> r == Err(InvalidArgument("env"))
    ensures r.Ok? ==> r.value.name == raw.name && r.value.command == raw.command
    ensures r.Ok? ==> (r.value.environment.Some? <==> Truthy(raw.env))
    ensures r.Ok? && Truthy(raw.env) ==> r.value.environment == Some(NormalizeEnv(EnvEntries(raw.env).value))
    ensures r.Ok? ==> (r.value.binds.Some? <==> Truthy(raw.volumes)) && (r.value.mountPoints.Some? <==> Truthy(raw.volumes))
    ensures r.Ok? && Truthy(raw.volumes) ==>
      && r.value.binds == Some(NormalizeVolumes(Entries(raw.volumes, "volumes").value).value.binds)
      && r.value.mountPoints == Some(NormalizeVolumes(Entries(raw.volumes, "volumes").value).value.mountPoints)
    ensures r.Ok? ==> (r.value.ports.Some? <==> Truthy(raw.ports))
    ensures r.Ok? && Truthy(raw.ports) ==> r.value.ports == Some(NormalizePorts(Entries(raw.ports, "ports").value).value)
    ensures r.Ok? && Given(raw.image) ==> r.value.image == Some(DefaultTag(raw.image.value))
    ensures r.Ok? && !Given(raw.image) ==> r.value.image == raw.image
  {
    var vols :- OptVolumes(raw.volumes);
    var image := if Given(raw.image) then Some(DefaultTag(raw.image.value)) else raw.image;
    var ports :- OptPorts(raw.ports);
    var env :- OptEnv(raw.env);
    Ok(Params(
      raw.name, image, raw.command, env,
      if vols.Some? then Some(vols.value.binds) else None,
      if vols.Some? then Some(vols.value.mountPoints) else None,
      ports))
  }

  /** The three input forms of the environment give the same normalised list. */
  lemma EnvFormsAgree(s: string, pairs: seq<(string, string)>)
    requires s != ""
    requires Split(s, ',') == seq(|pairs|, i requires 0 <= i < |pairs| => pairs[i].0 + "=" + pairs[i].1)
    ensures OptEnv(Str(s)) == OptEnv(List(Split(s, ','))) == OptEnv(Dict(pairs))
  {
  }
}

=== FILE: port_parser.dfy ===
/**
 * The rewritten port parser of dockerimpimp.py (`parse_port_params`). Unlike
 * the normaliser of dockerimp.py it always names the protocol in the key,
 * returns errors as values instead of raising, and binds a port only when both
 * a host address and a host port are given.
 */
module PortParser {
  import opened Results
  import opened PyStr
  import opened PyDict
  import Normalize

  /** `{'HostIp': ip, 'HostPort': port}`. */
  datatype HostAddress = HostAddress(hostIp: string, hostPort: string)

  /** The three shapes the function returns: `None`, `(None, error)`, or the bare dict. */
  datatype Parsed =
    | NoPorts
    | Invalid
    | Bindings(bindings: map<string, Option<HostAddress>>)

  /** The key of a container-side field: `port/protocol`, with `tcp` when no protocol is written. */
  function KeyFor(field: string): string
  {
    if '/' in field then field else field + "/tcp"
  }

  /** One entry `[ip:]host:container[/protocol]`, as its key and binding. */
  function ParseEntry(entry: string): (r: Result<(string, Option<HostAddress>)>)
    ensures r.Ok? <==> Normalize.WellFormedPort(entry)
    ensures r.Ok? ==> r.value.0 == KeyFor(LastField(entry, ':'))
    ensures r.Ok? ==> var f := Split(entry, ':');
      r.value.1 == if |f| == 3 && f[0] != "" && f[1] != "" then Some(HostAddress(f[0], f[1])) else None
  {
    var halfs := Split(entry, ':');
    if |halfs| != 2 && |halfs| != 3 then Err(InvalidArgument("ports"))
    else
      var hostPort := if |halfs| == 2 then halfs[0] else halfs[1];
      var protPort := halfs[|halfs| - 1];
      var bindIp := if |halfs| == 3 then halfs[0] else "";
      var protPortHalfs := Split(protPort, '/');
      if |protPortHalfs| > 2 then Err(InvalidArgument("ports"))
      else
        CountZero(protPort, '/');
        assert |protPortHalfs| == 2 ==> Join(protPortHalfs, '/') == protPortHalfs[0] + "/" + protPortHalfs[1];
        var key := if |protPortHalfs| == 2 then protPortHalfs[0] + "/" + protPortHalfs[1] else protPortHalfs[0] + "/tcp";
        var val := if bindIp != "" && hostPort != "" then Some(HostAddress(bindIp, hostPort)) else None;
        Ok((key, val))
  }

  /** `parse_port_params(port_param)`. */
  function ParsePortParams(param: Normalize.Raw): (r: Parsed)
    ensures !Normalize.Truthy(param) <==> r == NoPorts
    ensures Normalize.Truthy(param) && !param.Str? && !param.List? ==> r == Invalid
    ensures Normalize.Truthy(param) && (param.Str? || param.List?) ==>
      (r.Bindings? <==> forall i :: 0 <= i < |Normalize.Entries(param, "ports").value| ==>
                          Normalize.WellFormedPort(Normalize.Entries(param, "ports").value[i]))
  {
    if !Normalize.Truthy(param) then NoPorts
    else
      match Normalize.Entries(param, "ports")
      case Err(_) => Invalid
      case Ok(ports) =>
        match ParseAll(ports, ParseEntry)
        case Err(_) => Invalid
        case Ok(pairs) => Bindings(Collect(pairs))
  }

  /** A field with at most one `/` gets a key with exactly one. */
  lemma KeyForOneSlash(field: string)
    requires Count(field, '/') <= 1
    ensures Count(KeyFor(field), '/') == 1
  {
    CountZero(field, '/');
    if '/' !in field {
      CountAppend(field, "/tcp", '/');
      assert Count("/tcp", '/') == 1;
    }
  }

  /** Every key names a protocol: it holds exactly one `/`. */
  lemma KeysNameProtocol(param: Normalize.Raw, key: string)
    requires ParsePortParams(param).Bindings?
    requires key in ParsePortParams(param).bindings
    ensures Count(key, '/') == 1
  {
    var ports := Normalize.Entries(param, "ports").value;
    var pairs := ParseAll(ports, ParseEntry).value;
    assert ParsePortParams(param).bindings == Collect(pairs);
    CollectKeys(pairs, key);
    var i :| 0 <= i < |pairs| && pairs[i].0 == key;
    assert pairs[i] == ParseEntry(ports[i]).value;
    assert Normalize.WellFormedPort(ports[i]);
    KeyForOneSlash(LastField(ports[i], ':'));
  }

  /** The keys are exactly the entries' container-side fields, with `/tcp` added where no protocol is written. */
  lemma BindingKeys(param: Normalize.Raw, key: string)
    requires ParsePortParams(param).Bindings?
    ensures var ports := Normalize.Entries(param, "ports").value;
      key in ParsePortParams(param).bindings <==> exists i :: 0 <= i < |ports| && KeyFor(LastField(ports[i], ':')) == key
  {
    var ports := Normalize.Entries(param, "ports").value;
    var pairs := ParseAll(ports, ParseEntry).value;
    CollectKeys(pairs, key);
    assert forall i :: 0 <= i < |ports| ==> pairs[i].0 == KeyFor(LastField(ports[i], ':'));
  }

  /** A later entry with the same key overwrites an earlier one. */
  lemma LaterEntryWins(param: Normalize.Raw, i: int)
    requires ParsePortParams(param).Bindings?
    requires 0 <= i < |Normalize.Entries(param, "ports").value|
    requires var ports := Normalize.Entries(param, "ports").value;
      forall j :: i < j < |ports| ==> ParseEntry(ports[j]).value.0 != ParseEntry(ports[i]).value.0
    ensures var ports := Normalize.Entries(param, "ports").value;
      && ParseEntry(ports[i]).value.0 in ParsePortParams(param).bindings
      && ParsePortParams(param).bindings[ParseEntry(ports[i]).value.0] == ParseEntry(ports[i]).value.1
  {
    var ports := Normalize.Entries(param, "ports").value;
    var pairs := ParseAll(ports, ParseEntry).value;
    assert LastWrite(pairs, i);
    CollectLastWrite(pairs, i);
  }

  /** A comma-joined string and the list of its parts give the same result. */
  lemma StringAndListAgree(s: string)
    requires s != ""
    ensures ParsePortParams(Normalize.Str(s)) == ParsePortParams(Normalize.List(Split(s, ',')))
  {
    assert Split(s, ',') != [] ;
  }

  /** An entry with a `:`-field count other than 2 or 3 makes the whole parameter invalid. */
  lemma BadColonCount(param: Normalize.Raw, i: int)
    requires Normalize.Truthy(param) && (param.Str? || param.List?)
    requires 0 <= i < |Normalize.Entries(param, "ports").value|
    requires var n := |Split(Normalize.Entries(param, "ports").value[i], ':')|; n != 2 && n != 3
    ensures ParsePortParams(param) == Invalid
  {
  }

  /** An entry that does not parse makes a one-entry parameter invalid. */
  lemma SingleBadEntry(s: string)
    requires s != "" && ',' !in s
    requires ParseEntry(s).Err?
    ensures ParsePortParams(Normalize.Str(s)) == Invalid
  {
    SplitWithoutSep(s, ',');
  }

  /** A one-entry parameter that parses gives a one-key dict. */
  lemma SingleGoodEntry(s: string)
    requires s != "" && ',' !in s
    requires ParseEntry(s).Ok?
    ensures ParsePortParams(Normalize.Str(s)) == Bindings(map[ParseEntry(s).value.0 := ParseEntry(s).value.1])
  {
    SplitWithoutSep(s, ',');
    var r := ParseAll([s], ParseEntry);
    assert r.Ok? && |r.value| == 1 && r.value[0] == ParseEntry(s).value;
    assert r.value == [ParseEntry(s).value];
    assert Collect([ParseEntry(s).value]) == map[ParseEntry(s).value.0 := ParseEntry(s).value.1];
  }

  /** Four `:`-fields, as in the parser's own example `"1.2.3.4:80:80:1234"`, are invalid. */
  lemma FourFieldsInvalid(a: string, b: string, c: string, d: string)
    requires ':' !in a && ':' !in b && ':' !in c && ':' !in d
    requires ',' !in a && ',' !in b && ',' !in c && ',' !in d
    ensures ParsePortParams(Normalize.Str(a + ":" + b + ":" + c + ":" + d)) == Invalid
  {
    var s := a + ":" + b + ":" + c + ":" + d;
    assert s == a + [':'] + (b + [':'] + (c + [':'] + d));
    SplitWithoutSep(d, ':');
    SplitAfterField(c, d, ':');
    SplitAfterField(b, c + [':'] + d, ':');
    SplitAfterField(a, b + [':'] + (c + [':'] + d), ':');
    assert |Split(s, ':')| == 4;
    assert s[|a|] == ':';
    SingleBadEntry(s);
  }

  /** A bare port with no `:` is rejected too, unlike the `{'80/tcp': None}` its tests expect. */
  lemma BarePortRejected(port: string)
    requires port != "" && ':' !in port && ',' !in port
    ensures ParsePortParams(Normalize.Str(port)) == Invalid
  {
    SplitWithoutSep(port, ':');
    SingleBadEntry(port);
  }

  /** `ip:host:port` with an address and a host port is bound; the key defaults to tcp. */
  lemma AddressAndHostPortBound(ip: string, host: string, port: string)
    requires ip != "" && host != ""
    requires ':' !in ip && ':' !in host && ':' !in port && '/' !in port
    requires ',' !in ip && ',' !in host && ',' !in port
    ensures ParsePortParams(Normalize.Str(ip + ":" + host + ":" + port))
         == Bindings(map[port + "/tcp" := Some(HostAddress(ip, host))])
  {
    var s := ip + ":" + host + ":" + port;
    assert s == ip + [':'] + (host + [':'] + port);
    SplitWithoutSep(port, ':');
    SplitAfterField(host, port, ':');
    SplitAfterField(ip, host + [':'] + port, ':');
    assert Split(s, ':') == [ip, host, port];
    SplitWithoutSep(port, '/');
    assert ParseEntry(s) == Ok((port + "/tcp", Some(HostAddress(ip, host))));
    assert s[|ip|] == ':';
    SingleGoodEntry(s);
  }

  /** `host:port/protocol` without an address leaves the port unbound, whatever the host port. */
  lemma HostPortAloneUnbound(host: string, port: string, protocol: string)
    requires ':' !in host && ':' !in port && ':' !in protocol
    requires '/' !in port && '/' !in protocol
    requires ',' !in host && ',' !in port && ',' !in protocol
    ensures ParsePortParams(Normalize.Str(host + ":" + port + "/" + protocol))
         == Bindings(map[port + "/" + protocol := None])
  {
    var s := host + ":" + port + "/" + protocol;
    var field := port + "/" + protocol;
    assert s == host + [':'] + field;
    SplitWithoutSep(field, ':');
    SplitAfterField(host, field, ':');
    assert Split(s, ':') == [host, field];
    assert field == port + ['/'] + protocol;
    SplitWithoutSep(protocol, '/');
    SplitAfterField(port, protocol, '/');
    assert ParseEntry(s) == Ok((field, None));
    assert s[|host|] == ':';
    SingleGoodEntry(s);
  }
}

=== FILE: pydict.dfy ===
/**
 * Building a Python dict by assigning `d[key] = value` in a loop, and parsing
 * every element of a list where the first bad element aborts the whole parse.
 */
module PyDict {
  import opened Results

  /** `key` does not occur again after position `i`: entry `i` is the last write to it. */
  predicate LastWrite<K(==), V>(pairs: seq<(K, V)>, i: int)
    requires 0 <= i < |pairs|
  {
    forall j :: i < j < |pairs| ==> pairs[j].0 != pairs[i].0
  }

  /** The dict left by `for (k, v) in pairs: d[k] = v`, starting from `{}`. */
  function Collect<K(==), V>(pairs: seq<(K, V)>): map<K, V>
  {
    if |pairs| == 0 then map[]
    else
      var n := |pairs| - 1;
      Collect(pairs[..n])[pairs[n].0 := pairs[n].1]
  }

  /** Exactly the keys written are present. */
  lemma {:induction false} CollectKeys<K, V>(pairs: seq<(K, V)>, k: K)
    ensures k in Collect(pairs) <==> exists i :: 0 <= i < |pairs| && pairs[i].0 == k
  {
    if |pairs| > 0 {
      var n := |pairs| - 1;
      CollectKeys(pairs[..n], k);
      assert forall i :: 0 <= i < n ==> pairs[..n][i] == pairs[i];
    }
  }

  /** A key holds the value of its last write. */
  lemma {:induction false} CollectLastWrite<K, V>(pairs: seq<(K, V)>, i: int)
    requires 0 <= i < |pairs| && LastWrite(pairs, i)
    ensures pairs[i].0 in Collect(pairs) && Collect(pairs)[pairs[i].0] == pairs[i].1
  {
    var n := |pairs| - 1;
    if i < n {
      assert pairs[..n][i] == pairs[i];
      assert LastWrite(pairs[..n], i) by {
        forall j | i < j < n
          ensures pairs[..n][j].0 != pairs[..n][i].0
        {
          assert pairs[..n][j] == pairs[j];
        }
      }
      CollectLastWrite(pairs[..n], i);
    }
  }

  /** A key written somewhere holds the value of some write to it. */
  lemma {:induction false} CollectValueFromEntry<K, V>(pairs: seq<(K, V)>, k: K)
    requires exists i :: 0 <= i < |pairs| && pairs[i].0 == k
    ensures k in Collect(pairs)
    ensures exists i :: 0 <= i < |pairs| && pairs[i] == (k, Collect(pairs)[k])
  {
    var i :| 0 <= i < |pairs| && pairs[i].0 == k;
    while !LastWrite(pairs, i)
      invariant 0 <= i < |pairs| && pairs[i].0 == k
      decreases |pairs| - i
    {
      var j :| i < j < |pairs| && pairs[j].0 == k;
      i := j;
    }
    CollectLastWrite(pairs, i);
  }

  /**
   * Parses every element of `xs` with `parse`, in order; fails with the first
   * element's failure when any element fails.
   */
  function ParseAll<A, T>(xs: seq<A>, parse: A -> Result<T>): (r: Result<seq<T>>)
    ensures r.Ok? <==> forall i :: 0 <= i < |xs| ==> parse(xs[i]).Ok?
    ensures r.Ok? ==> |r.value| == |xs| && forall i :: 0 <= i < |xs| ==> r.value[i] == parse(xs[i]).value
    ensures r.Err? ==> exists i :: 0 <= i < |xs| && parse(xs[i]) == Err(r.error)
  {
    if |xs| == 0 then Ok([])
    else
      match parse(xs[0])
      case Err(e) => Err(e)
      case Ok(v) =>
        match ParseAll(xs[1..], parse)
        case Err(e) =>
          Err(e)
        case Ok(vs) =>
          assert forall i :: 1 <= i < |xs| ==> xs[1..][i - 1] == xs[i];
          Ok([v] + vs)
  }
}

=== FILE: pystr.dfy ===
/**
 * The few Python string operations the container manager is built from:
 * `s.split(sep)` and `sep.join(parts)` for a one-character separator,
 * substring containment (`sub in s`) and prefix tests (`s.startswith(p)`).
 */
module PyStr {

  /** Number of occurrences of `c` in `s`. */
  function Count(s: string, c: char): nat
  {
    if |s| == 0 then 0 else (if s[0] == c then 1 else 0) + Count(s[1..], c)
  }

  lemma {:induction false} CountZero(s: string, c: char)
    ensures Count(s, c) == 0 <==> c !in s
  {
    if |s| > 0 {
      CountZero(s[1..], c);
      assert s == [s[0]] + s[1..];
    }
  }

  lemma {:induction false} CountAppend(a: string, b: string, c: char)
    ensures Count(a + b, c) == Count(a, c) + Count(b, c)
  {
    if |a| > 0 {
      assert (a + b)[1..] == a[1..] + b;
      CountAppend(a[1..], b, c);
    } else {
      assert a + b == b;
    }
  }

  /** `sep.join(parts)`: the parts with one `sep` between neighbours. */
  function Join(parts: seq<string>, sep: char): string
  {
    if |parts| == 0 then ""
    else if |parts| == 1 then parts[0]
    else parts[0] + [sep] + Join(parts[1..], sep)
  }

  /**
   * Python's `s.split(sep)` for a one-character separator. It splits at every
   * occurrence, keeps empty fields, and always returns at least one field;
   * joining the fields back with `sep` gives `s` again.
   */
  function Split(s: string, sep: char): (r: seq<string>)
    ensures |r| >= 1
    ensures |r| == Count(s, sep) + 1
    ensures forall i :: 0 <= i < |r| ==> sep !in r[i]
    ensures Join(r, sep) == s
    decreases |s|
  {
    if |s| == 0 then [""]
    else
      var rest := Split(s[1..], sep);
      if s[0] == sep then
        assert ([""] + rest)[1..] == rest;
        [""] + rest
      else
        var r := [[s[0]] + rest[0]] + rest[1..];
        assert r[1..] == rest[1..];
        assert |rest| > 1 ==> Join(rest, sep) == rest[0] + [sep] + Join(rest[1..], sep);
        assert s == [s[0]] + s[1..];
        r
  }

  /** The last field of `s.split(sep)`, Python's `s.split(sep)[-1]`. */
  function LastField(s: string, sep: char): string
  {
    var fields := Split(s, sep);
    fields[|fields| - 1]
  }

  lemma SplitWithoutSep(s: string, sep: char)
    requires sep !in s
    ensures Split(s, sep) == [s]
  {
    CountZero(s, sep);
  }

  /** Splitting `a + sep + b`, where `a` holds no separator, yields `a` followed by the fields of `b`. */
  lemma {:induction false} SplitAfterField(a: string, b: string, sep: char)
    requires sep !in a
    ensures Split(a + [sep] + b, sep) == [a] + Split(b, sep)
    decreases |a|
  {
    var s := a + [sep] + b;
    if |a| == 0 {
      assert s == [sep] + b;
      assert s[1..] == b;
    } else {
      assert s[1..] == a[1..] + [sep] + b;
      SplitAfterField(a[1..], b, sep);
      assert [s[0]] + a[1..] == a;
    }
  }

  /** Splitting inverts joining, when no part holds the separator. */
  lemma {:induction false} SplitJoin(parts: seq<string>, sep: char)
    requires |parts| >= 1
    requires forall i :: 0 <= i < |parts| ==> sep !in parts[i]
    ensures Split(Join(parts, sep), sep) == parts
    decreases |parts|
  {
    if |parts| == 1 {
      SplitWithoutSep(parts[0], sep);
    } else {
      SplitJoin(parts[1..], sep);
      SplitAfterField(parts[0], Join(parts[1..], sep), sep);
      assert [parts[0]] + parts[1..] == parts;
    }
  }

  /** Appending text without a separator only extends the last field. */
  lemma {:induction false} LastFieldAppend(s: string, t: string, sep: char)
    requires sep !in t
    ensures LastField(s + t, sep) == LastField(s, sep) + t
    decreases |s|
  {
    if |s| == 0 {
      assert s + t == t;
      SplitWithoutSep(t, sep);
    } else {
      assert (s + t)[1..] == s[1..] + t;
      LastFieldAppend(s[1..], t, sep);
      CountAppend(s[1..], t, sep);
      CountZero(t, sep);
    }
  }

  /**
   * The last field is the suffix of `s` after the last separator: it starts at
   * `k`, where `k` is zero or just after a separator.
   */
  lemma {:induction false} LastFieldIsSuffix(s: string, sep: char) returns (k: nat)
    ensures k <= |s|
    ensures LastField(s, sep) == s[k..]
    ensures k == 0 || s[k - 1] == sep
    decreases |s|
  {
    if |s| == 0 {
      k := 0;
    } else {
      var k' := LastFieldIsSuffix(s[1..], sep);
      var rest := Split(s[1..], sep);
      if s[0] == sep || |rest| > 1 {
        k := k' + 1;
        assert s[k..] == s[1..][k'..];
      } else {
        k := 0;
        assert [s[0]] + s[1..] == s;
      }
    }
  }

  predicate StartsWith(s: string, prefix: string)
  {
    |prefix| <= |s| && s[..|prefix|] == prefix
  }

  /** `sub` occurs in `s` starting at index `i`. */
  predicate OccursAt(s: string, sub: string, i: int)
  {
    0 <= i <= |s| - |sub| && s[i..i + |sub|] == sub
  }

  /** Python's `sub in s`: `sub` occurs somewhere in `s`. */
  function Contains(s: string, sub: string): (b: bool)
    ensures b <==> exists i :: OccursAt(s, sub, i)
    decreases |s|
  {
    if StartsWith(s, sub) then
      assert OccursAt(s, sub, 0);
      true
    else if |s| == 0 then false
    else
      var b := Contains(s[1..], sub);
      assert forall i :: OccursAt(s[1..], sub, i) <==> OccursAt(s, sub, i + 1);
      assert !OccursAt(s, sub, 0);
      assert (exists i :: OccursAt(s, sub, i)) ==> exists i :: OccursAt(s[1..], sub, i) by {
        if exists i :: OccursAt(s, sub, i) {
          var i :| OccursAt(s, sub, i);
          assert OccursAt(s[1..], sub, i - 1);
        }
      }
      b
  }
}

=== FILE: recipes.dfy ===
/**
 * The desired-state recipes of dockerimp.py. Each recipe reads the engine,
 * issues lifecycle calls, and appends one log entry per call that changed
 * something. A raised exception becomes an `Err`; the log gathered so far is
 * then discarded, as the module reports only the failure.
 */
module Recipes {
  import opened Results
  import opened Engine
  import opened Lookup
  import ChangeLog
  import Compliance
  import Normalize

  /** The engine and the change log, threaded through a recipe. */
  datatype Run = Run(engine: State, log: seq<ChangeLog.Entry>)

  function Logged(run: Run, s: State, action: ChangeLog.Action, subject: string): Run
  {
    Run(s, run.log + [ChangeLog.Entry(action, subject)])
  }

  // ------------------------------------------------------- required parameters

  datatype Field = NameField | ImageField

  function FieldName(f: Field): string
  {
    match f
    case NameField => "name"
    case ImageField => "image"
  }

  predicate Supplied(p: Normalize.Params, f: Field)
  {
    match f
    case NameField => Normalize.Given(p.name)
    case ImageField => Normalize.Given(p.image)
  }

  /** `check_required_parameters`: the first required parameter that is missing or empty, in order. */
  function CheckRequired(p: Normalize.Params, required: seq<Field>): (r: Option<Failure>)
    ensures r.None? <==> forall i :: 0 <= i < |required| ==> Supplied(p, required[i])
    ensures r.Some? ==> exists i :: 0 <= i < |required| && !Supplied(p, required[i])
                          && r.value == MissingParameter(FieldName(required[i]))
                          && forall j :: 0 <= j < i ==> Supplied(p, required[j])
  {
    if |required| == 0 then None
    else if !Supplied(p, required[0]) then Some(MissingParameter(FieldName(required[0])))
    else
      var r := CheckRequired(p, required[1..]);
      assert forall i :: 1 <= i < |required| ==> required[i] == required[1..][i - 1];
      assert r.Some? ==> exists i :: 0 <= i < |required| && !Supplied(p, required[i])
                          && r.value == MissingParameter(FieldName(required[i]))
                          && forall j :: 0 <= j < i ==> Supplied(p, required[j]) by {
        if r.Some? {
          var i :| 0 <= i < |required[1..]| && !Supplied(p, required[1..][i])
                   && r.value == MissingParameter(FieldName(required[1..][i]))
                   && forall j :: 0 <= j < i ==> Supplied(p, required[1..][j]);
          assert forall j :: 1 <= j < i + 1 ==> required[j] == required[1..][j - 1];
        }
      }
      r
  }

  /** `("name", "image")`: a missing name is reported before a missing image. */
  lemma NameCheckedBeforeImage(p: Normalize.Params)
    ensures !Normalize.Given(p.name) ==> CheckRequired(p, [NameField, ImageField]) == Some(MissingParameter("name"))
    ensures Normalize.Given(p.name) && !Normalize.Given(p.image) ==>
      CheckRequired(p, [NameField, ImageField]) == Some(MissingParameter("image"))
    ensures Normalize.Given(p.name) && Normalize.Given(p.image) ==> CheckRequired(p, [NameField, ImageField]) == None
  {
    var r := CheckRequired(p, [NameField, ImageField]);
    if r.Some? {
      var i :| 0 <= i < 2 && !Supplied(p, [NameField, ImageField][i])
               && r.value == MissingParameter(FieldName([NameField, ImageField][i]))
               && forall j :: 0 <= j < i ==> Supplied(p, [NameField, ImageField][j]);
      assert i == 0 ==> !Normalize.Given(p.name);
      assert i == 1 ==> Supplied(p, [NameField, ImageField][0]);
    }
  }

  // ------------------------------------------------------------ engine calls

  /** `stop_container`: logs the stop. */
  function StopContainer(run: Run, c: Container): (r: Run)
    ensures |r.engine.containers| == |run.engine.containers|
    ensures forall i :: 0 <= i < |run.engine.containers| && run.engine.containers[i].id == c.id ==>
      r.engine.containers[i] == run.engine.containers[i].(running := false)
    ensures forall i :: 0 <= i < |run.engine.containers| && run.engine.containers[i].id != c.id ==>
      r.engine.containers[i] == run.engine.containers[i]
    ensures r.engine.images == run.engine.images && r.engine.registry == run.engine.registry
    ensures r.log == run.log + [ChangeLog.Entry(ChangeLog.Stopped, c.id)]
  {
    Logged(run, Stop(run.engine, c.id), ChangeLog.Stopped, c.id)
  }

  /**
   * Another listed container also answers to `c`'s id (by name or id prefix),
   * so the lookup after removing `c` still finds something.
   */
  predicate RemovalBlocked(s: State, c: Container)
  {
    exists x :: x in s.containers && x.id != c.id && Matches(x, c.id)
  }

  /**
   * `remove_container`: stops a running container first, removes it, and
   * looks its id up again; a container still found by that id means the
   * removal failed.
   */
  function RemoveContainer(run: Run, c: Container): (r: Result<Run>)
    ensures r.Err? ==> r.error == CouldNotRemove || r.error == AmbiguousContainer
    ensures r.Err? <==> RemovalBlocked(run.engine, c)
    ensures r.Ok? ==> FindContainer(r.value.engine, c.id) == Ok(None)
    ensures r.Ok? ==> r.value.engine.registry == run.engine.registry
    ensures r.Ok? ==> forall x :: x in r.value.engine.containers ==> x.id != c.id && x in run.engine.containers
    ensures r.Ok? ==> r.value.engine.images == run.engine.images
    ensures r.Ok? ==> r.value.log == run.log + RemovalLog(c)
  {
    var stopped := if c.running then StopContainer(run, c) else run;
    var s := stopped.engine.(containers := Remove(stopped.engine.containers, c.id));
    RemovedRecords(run, c);
    var again :- FindContainer(s, c.id);
    if again.Some? then Err(CouldNotRemove)
    else Ok(Logged(stopped, s, ChangeLog.Removed, c.id))
  }

  /** What `remove_container` logs: the stop, when the container runs, then the removal. */
  function RemovalLog(c: Container): seq<ChangeLog.Entry>
  {
    (if c.running then [ChangeLog.Entry(ChangeLog.Stopped, c.id)] else [])
      + [ChangeLog.Entry(ChangeLog.Removed, c.id)]
  }

  /**
   * The records left once a container is stopped (when it runs) and removed:
   * the other records, as they were; one of them still matches the id
   * exactly when some other listed container did.
   */
  lemma RemovedRecords(run: Run, c: Container)
    ensures var stopped := if c.running then StopContainer(run, c) else run;
      var left := Remove(stopped.engine.containers, c.id);
      && (forall x :: x in left ==> x.id != c.id && x in run.engine.containers)
      && ((exists x :: x in run.engine.containers && x.id != c.id && Matches(x, c.id))
          <==> exists k :: 0 <= k < |left| && Matches(left[k], c.id))
  {
    var stopped := if c.running then StopContainer(run, c) else run;
    var left := Remove(stopped.engine.containers, c.id);
    StopKeepsOthers(run, c, c.running);
    if exists k :: 0 <= k < |left| && Matches(left[k], c.id) {
      var k :| 0 <= k < |left| && Matches(left[k], c.id);
      assert left[k] in left;
    }
    if exists x :: x in run.engine.containers && x.id != c.id && Matches(x, c.id) {
      var x :| x in run.engine.containers && x.id != c.id && Matches(x, c.id);
      var k :| 0 <= k < |run.engine.containers| && run.engine.containers[k] == x;
      assert stopped.engine.containers[k] == x;
      var j :| 0 <= j < |left| && left[j] == x;
    }
  }

  /** Stopping a container leaves every record with another id as it was. */
  lemma StopKeepsOthers(run: Run, c: Container, stop: bool)
    ensures var stopped := if stop then StopContainer(run, c) else run;
      forall x :: x in stopped.engine.containers && x.id != c.id ==> x in run.engine.containers
  {
    var stopped := if stop then StopContainer(run, c) else run;
    forall x | x in stopped.engine.containers && x.id != c.id
      ensures x in run.engine.containers
    {
      var k :| 0 <= k < |stopped.engine.containers| && stopped.engine.containers[k] == x;
      assert run.engine.containers[k].id != c.id;
    }
  }

  /**
   * `pull_image`: pulls, then looks the image up again. Not found is an
   * error; a new image id (or an image that was not there before) is logged.
   */
  function PullImage(run: Run, ref: string): (r: Result<Run>)
    ensures r.Ok? <==> ref in run.engine.images || ref in run.engine.registry
    ensures r.Err? ==> r.error == ImageNotFound(ref)
    ensures r.Ok? ==> r.value.engine.containers == run.engine.containers
    ensures r.Ok? ==> ref in r.value.engine.images
    ensures r.Ok? ==> ref in run.engine.registry ==> r.value.engine.images[ref] == run.engine.registry[ref]
    ensures r.Ok? ==> (r.value.log == run.log <==>
      ref in run.engine.images && run.engine.images[ref] == r.value.engine.images[ref])
    ensures r.Ok? && r.value.log != run.log ==>
      r.value.log == run.log + [ChangeLog.Entry(ChangeLog.Pulled, r.value.engine.images[ref])]
  {
    var before := FindImage(run.engine, ref);
    var s := Pull(run.engine, ref);
    match FindImage(s, ref)
    case None => Err(ImageNotFound(ref))
    case Some(id) =>
      if before == Some(id) then Ok(Run(s, run.log))
      else Ok(Logged(run, s, ChangeLog.Pulled, id))
  }

  /** `__ensure_image_present`: pulls only when the image is not held locally. */
  function EnsureImagePresentIn(run: Run, ref: string): (r: Result<Run>)
    ensures r.Ok? <==> ref in run.engine.images || ref in run.engine.registry
    ensures ref in run.engine.images ==> r == Ok(run)
    ensures r.Ok? ==> ref in r.value.engine.images && r.value.engine.containers == run.engine.containers
    ensures r.Ok? && ref !in run.engine.images ==>
      r.value.log == run.log + [ChangeLog.Entry(ChangeLog.Pulled, r.value.engine.images[ref])]
    ensures r.Ok? ==> run.log <= r.value.log
  {
    if FindImage(run.engine, ref).Some? then Ok(run) else PullImage(run, ref)
  }

  /** `__ensure_present()` with no container: make sure the image is there, then create. */
  function CreateFresh(run: Run, p: Normalize.Params, id: string): (r: Result<(Run, Container)>)
    requires Normalize.Given(p.name) && Normalize.Given(p.image)
    ensures r.Ok? <==> p.image.value in run.engine.images || p.image.value in run.engine.registry
    ensures r.Ok? ==> p.image.value in r.value.0.engine.images
    ensures r.Ok? ==> r.value.1 == Created(p, id, r.value.0.engine.images[p.image.value])
    ensures r.Ok? ==> r.value.0.engine.containers == run.engine.containers + [r.value.1]
    ensures r.Ok? ==> |r.value.0.log| >= 1 && r.value.0.log[|r.value.0.log| - 1] == ChangeLog.Entry(ChangeLog.Created, id)
    ensures r.Ok? ==> run.log < r.value.0.log
    ensures r.Ok? && FindContainer(run.engine, p.name.value) == Ok(None) ==>
      FindContainer(r.value.0.engine, p.name.value) == Ok(Some(r.value.1))
  {
    var ready :- EnsureImagePresentIn(run, p.image.value);
    assert Create(ready.engine, p, id).Ok?;
    var made := Create(ready.engine, p, id).value;
    assert FindContainer(run.engine, p.name.value) == Ok(None) ==>
             FindContainer(made.0, p.name.value) == Ok(Some(made.1)) by {
      if FindContainer(run.engine, p.name.value) == Ok(None) {
        assert FindContainer(ready.engine, p.name.value) == Ok(None);
        FindAfterAppend(ready.engine, p.name.value, made.1);
      }
    }
    Ok((Logged(ready, made.0, ChangeLog.Created, id), made.1))
  }

  /** `start_container`: starts with the rendered binds and logs the start. */
  function StartContainer(run: Run, p: Normalize.Params, c: Container): (r: (Run, Container))
    ensures r.1.running && r.1.id == c.id && r.1.names == c.names && r.1.env == c.env
    ensures r.1.binds == RenderBinds(p.binds.GetOr(map[]))
    ensures |r.0.engine.containers| == |run.engine.containers|
    ensures forall i :: 0 <= i < |run.engine.containers| && run.engine.containers[i].id == c.id ==>
      && r.0.engine.containers[i].running
      && r.0.engine.containers[i].binds == RenderBinds(p.binds.GetOr(map[]))
    ensures forall i :: 0 <= i < |run.engine.containers| && run.engine.containers[i].id != c.id ==>
      r.0.engine.containers[i] == run.engine.containers[i]
    ensures r.0.engine.images == run.engine.images
    ensures r.0.log == run.log + [ChangeLog.Entry(ChangeLog.Started, c.id)]
  {
    var binds := RenderBinds(p.binds.GetOr(map[]));
    (Logged(run, Start(run.engine, c.id, binds), ChangeLog.Started, c.id), Apply(MarkStarted(binds), c))
  }

  /**
   * `is_running_latest_image(container, find_image(ref))`: an image the
   * engine does not hold is never the latest; otherwise its id must be the
   * one the container runs.
   */
  function IsRunningLatestImage(s: State, c: Container, ref: string): (b: bool)
    ensures b <==> ref in s.images && s.images[ref] == c.imageId
  {
    match FindImage(s, ref)
    case None => false
    case Some(image) => image == c.imageId
  }

  // ------------------------------------------------------------------ absent

  /**
   * `ensure_absent`, as it would be with a guard: nothing to remove is not an
   * error. Afterwards nothing matches the name.
   */
  function EnsureAbsent(run: Run, p: Normalize.Params): (r: Result<Run>)
    ensures !Normalize.Given(p.name) ==> r == Err(MissingParameter("name"))
    ensures Normalize.Given(p.name) && FindContainer(run.engine, p.name.value) == Ok(None) ==> r == Ok(run)
    ensures r.Ok? ==> Normalize.Given(p.name) && FindContainer(r.value.engine, p.name.value) == Ok(None)
    ensures r.Ok? ==> r.value.engine.images == run.engine.images
    ensures r.Ok? ==> run.log <= r.value.log
    ensures r.Ok? && FindContainer(run.engine, p.name.value).Ok? && FindContainer(run.engine, p.name.value).value.Some? ==>
      r.value.log == run.log + RemovalLog(FindContainer(run.engine, p.name.value).value.value)
    ensures Normalize.Given(p.name) && FindContainer(run.engine, p.name.value).Ok?
            && FindContainer(run.engine, p.name.value).value.Some? ==>
      (r.Err? <==> RemovalBlocked(run.engine, FindContainer(run.engine, p.name.value).value.value))
    ensures r.Ok? ==> r.value.engine.registry == run.engine.registry
  {
    match CheckRequired(p, [NameField])
    case Some(e) => Err(e)
    case None =>
      var found :- FindContainer(run.engine, p.name.value);
      match found
      case None => Ok(run)
      case Some(c) =>
        var r := RemoveContainer(run, c);
        if r.Ok? then
          RemoveContainerClears(run, c, p.name.value);
          r
        else r
  }

  /** Removing (after perhaps stopping) the only container a name matches leaves nothing that matches it. */
  lemma RemovedNoLongerFound(s: State, name: string)
    requires FindContainer(s, name).Ok? && FindContainer(s, name).value.Some?
    ensures var c := FindContainer(s, name).value.value;
      && FindContainer(s.(containers := Remove(s.containers, c.id)), name) == Ok(None)
      && FindContainer(s.(containers := Remove(Stop(s, c.id).containers, c.id)), name) == Ok(None)
  {
    var c := FindContainer(s, name).value.value;
    var i := FoundIsOnlyMatch(s, name);
    forall x | x in s.containers && x.id != c.id
      ensures !Matches(x, name)
    {
      var j :| 0 <= j < |s.containers| && s.containers[j] == x;
    }
    var stopped := Stop(s, c.id).containers;
    forall x | x in stopped && x.id != c.id
      ensures !Matches(x, name)
    {
      var j :| 0 <= j < |stopped| && stopped[j] == x;
      assert x == s.containers[j];
    }
    var s1 := s.(containers := Remove(s.containers, c.id));
    var s2 := s.(containers := Remove(stopped, c.id));
    assert forall k :: 0 <= k < |s1.containers| ==> s1.containers[k] in s1.containers;
    assert forall k :: 0 <= k < |s2.containers| ==> s2.containers[k] in s2.containers;
  }

  /** After a successful `remove_container` of the container a name finds, the name finds nothing. */
  lemma RemoveContainerClears(run: Run, c: Container, name: string)
    requires FindContainer(run.engine, name) == Ok(Some(c))
    requires RemoveContainer(run, c).Ok?
    ensures FindContainer(RemoveContainer(run, c).value.engine, name) == Ok(None)
  {
    RemovedNoLongerFound(run.engine, name);
  }

  /**
   * `ensure_absent` as written: the container is passed to
   * `remove_container` unchecked, so a missing one raises `TypeError`.
   */
  function EnsureAbsentAsWritten(run: Run, p: Normalize.Params): (r: Result<Run>)
    ensures Normalize.Given(p.name) && FindContainer(run.engine, p.name.value) == Ok(None) ==>
      r == Err(Crash("TypeError"))
    ensures r.Ok? ==> Normalize.Given(p.name) && FindContainer(r.value.engine, p.name.value) == Ok(None)
    ensures r.Ok? ==> FindContainer(run.engine, p.name.value).Ok? && FindContainer(run.engine, p.name.value).value.Some?
                      && r.value.log == run.log + RemovalLog(FindContainer(run.engine, p.name.value).value.value)
    ensures Normalize.Given(p.name) && FindContainer(run.engine, p.name.value).Ok?
            && FindContainer(run.engine, p.name.value).value.Some? ==>
      (r.Err? <==> RemovalBlocked(run.engine, FindContainer(run.engine, p.name.value).value.value))
  {
    match CheckRequired(p, [NameField])
    case Some(e) => Err(e)
    case None =>
      var found :- FindContainer(run.engine, p.name.value);
      match found
      case None => Err(Crash("TypeError"))
      case Some(c) =>
        var r := RemoveContainer(run, c);
        if r.Ok? then
          RemoveContainerClears(run, c, p.name.value);
          r
        else r
  }

  /** As written, `absent` is not idempotent: a second run after a successful one always fails. */
  lemma AbsentAsWrittenFailsTwice(run: Run, p: Normalize.Params)
    requires Normalize.Given(p.name)
    requires EnsureAbsentAsWritten(run, p).Ok?
    ensures EnsureAbsentAsWritten(EnsureAbsentAsWritten(run, p).value, p) == Err(Crash("TypeError"))
  {
  }

  /** With the guard, `absent` is idempotent and a second run logs nothing. */
  lemma AbsentIdempotent(run: Run, p: Normalize.Params)
    requires EnsureAbsent(run, p).Ok?
    ensures EnsureAbsent(EnsureAbsent(run, p).value, p) == Ok(EnsureAbsent(run, p).value)
  {
  }

  // ----------------------------------------------------------------- present

  /** The reference is held locally or the registry has it, so the image can be made present. */
  predicate Obtainable(s: State, ref: string)
  {
    ref in s.images || ref in s.registry
  }

  /**
   * When `__ensure_present` succeeds, given what the name found: a compliant
   * container is kept; otherwise a non-compliant one must be removable and the
   * image obtainable for the new container.
   */
  predicate PresentSucceeds(s: State, p: Normalize.Params, found: Option<Container>)
    requires Normalize.Given(p.image)
  {
    match found
    case None => Obtainable(s, p.image.value)
    case Some(c) =>
      || Compliance.EnsureSame(p, c) == Ok(true)
      || (Compliance.EnsureSame(p, c) == Ok(false) && !RemovalBlocked(s, c) && Obtainable(s, p.image.value))
  }

  /**
   * When the branches of `ensure_running_latest` succeed: a container not on
   * the latest local image must be removable and the image obtainable;
   * otherwise as for `__ensure_present`.
   */
  predicate LatestSucceeds(s: State, p: Normalize.Params, found: Option<Container>)
    requires Normalize.Given(p.image)
  {
    match found
    case None => Obtainable(s, p.image.value)
    case Some(c) =>
      if !IsRunningLatestImage(s, c, p.image.value) then !RemovalBlocked(s, c) && Obtainable(s, p.image.value)
      else PresentSucceeds(s, p, found)
  }

  /**
   * `__ensure_present(container)`: no container means create one; a
   * container that fails the compliance check is removed (through
   * `ensure_absent`) and a new one created; a compliant one is kept as is.
   * Either way the name then finds the container it returns.
   */
  function EnsurePresentFrom(run: Run, p: Normalize.Params, found: Option<Container>, id: string): (r: Result<(Run, Container)>)
    requires Normalize.Given(p.name) && Normalize.Given(p.image)
    requires FindContainer(run.engine, p.name.value) == Ok(found)
    ensures found.Some? && Compliance.EnsureSame(p, found.value) == Ok(true) ==> r == Ok((run, found.value))
    ensures r.Ok? ==> FindContainer(r.value.0.engine, p.name.value) == Ok(Some(r.value.1))
    ensures r.Ok? && r.value.0 == run ==> found == Some(r.value.1) && Compliance.EnsureSame(p, r.value.1) == Ok(true)
    ensures r.Ok? && r.value.0 != run ==>
      && p.image.value in r.value.0.engine.images
      && r.value.1 == Created(p, id, r.value.0.engine.images[p.image.value])
    ensures r.Ok? ==> run.log <= r.value.0.log
    ensures r.Ok? ==> (r.value.0.log == run.log <==> found.Some? && Compliance.EnsureSame(p, found.value) == Ok(true))
    ensures r.Ok? <==> PresentSucceeds(run.engine, p, found)
    ensures found.Some? && Compliance.EnsureSame(p, found.value).Err? ==> r == Err(Compliance.EnsureSame(p, found.value).error)
  {
    match found
    case None => CreateFresh(run, p, id)
    case Some(c) =>
      var same :- Compliance.EnsureSame(p, c);
      if same then Ok((run, c))
      else
        var cleared :- EnsureAbsent(run, p);
        CreateFresh(cleared, p, id)
  }

  /** `ensure_present`: afterwards the name finds a container. */
  function EnsurePresent(run: Run, p: Normalize.Params, id: string): (r: Result<Run>)
    ensures CheckRequired(p, [NameField, ImageField]).Some? ==> r == Err(CheckRequired(p, [NameField, ImageField]).value)
    ensures r.Ok? ==> Normalize.Given(p.name) && FindContainer(r.value.engine, p.name.value).Ok?
                      && FindContainer(r.value.engine, p.name.value).value.Some?
    ensures Normalize.Given(p.name) && Normalize.Given(p.image) && FindContainer(run.engine, p.name.value).Err? ==>
      r == Err(FindContainer(run.engine, p.name.value).error)
    ensures Normalize.Given(p.name) && Normalize.Given(p.image) && FindContainer(run.engine, p.name.value).Ok? ==>
      (r.Ok? <==> PresentSucceeds(run.engine, p, FindContainer(run.engine, p.name.value).value))
  {
    match CheckRequired(p, [NameField, ImageField])
    case Some(e) => Err(e)
    case None =>
      NameCheckedBeforeImage(p);
      var found :- FindContainer(run.engine, p.name.value);
      var kept :- EnsurePresentFrom(run, p, found, id);
      Ok(kept.0)
  }

  /** Starts the container the name finds unless it already runs. */
  function StartIfStopped(run: Run, p: Normalize.Params, c: Container): (r: Run)
    requires Normalize.Given(p.name) && FindContainer(run.engine, p.name.value) == Ok(Some(c))
    ensures c.running ==> r == run
    ensures !c.running ==> r.log == run.log + [ChangeLog.Entry(ChangeLog.Started, c.id)]
    ensures FindContainer(r.engine, p.name.value)
         == Ok(Some(if c.running then c else Apply(MarkStarted(RenderBinds(p.binds.GetOr(map[]))), c)))
    ensures r.engine.images == run.engine.images
  {
    if c.running then run
    else
      FindAfterUpdate(run.engine, p.name.value, c.id, MarkStarted(RenderBinds(p.binds.GetOr(map[]))));
      StartContainer(run, p, c).0
  }

  /**
   * The name finds a running container that passes the compliance check:
   * `running` has nothing to do.
   */
  predicate KeptRunning(s: State, p: Normalize.Params)
  {
    && Normalize.Given(p.name) && Normalize.Given(p.image)
    && FindContainer(s, p.name.value).Ok? && FindContainer(s, p.name.value).value.Some?
    && FindContainer(s, p.name.value).value.value.running
    && Compliance.EnsureSame(p, FindContainer(s, p.name.value).value.value) == Ok(true)
  }

  /** As `KeptRunning`, and the container runs the image the reference names locally. */
  predicate KeptLatest(s: State, p: Normalize.Params)
  {
    && KeptRunning(s, p)
    && IsRunningLatestImage(s, FindContainer(s, p.name.value).value.value, p.image.value)
  }

  /** `ensure_running`: afterwards the name finds a running container. */
  function EnsureRunning(run: Run, p: Normalize.Params, id: string): (r: Result<Run>)
    ensures CheckRequired(p, [NameField, ImageField]).Some? ==> r == Err(CheckRequired(p, [NameField, ImageField]).value)
    ensures r.Ok? ==> (Normalize.Given(p.name)
      && exists c: Container :: FindContainer(r.value.engine, p.name.value) == Ok(Some(c)) && c.running)
    ensures KeptRunning(run.engine, p) ==> r == Ok(run)
    ensures r.Ok? ==> run.log <= r.value.log
    ensures r.Ok? && !KeptRunning(run.engine, p) ==> |r.value.log| > |run.log|
    ensures Normalize.Given(p.name) && Normalize.Given(p.image) && FindContainer(run.engine, p.name.value).Err? ==>
      r == Err(FindContainer(run.engine, p.name.value).error)
    ensures Normalize.Given(p.name) && Normalize.Given(p.image) && FindContainer(run.engine, p.name.value).Ok? ==>
      (r.Ok? <==> PresentSucceeds(run.engine, p, FindContainer(run.engine, p.name.value).value))
  {
    match CheckRequired(p, [NameField, ImageField])
    case Some(e) => Err(e)
    case None =>
      NameCheckedBeforeImage(p);
      var found :- FindContainer(run.engine, p.name.value);
      var kept :- EnsurePresentFrom(run, p, found, id);
      var r := StartIfStopped(kept.0, p, kept.1);
      var c := if kept.1.running then kept.1 else Apply(MarkStarted(RenderBinds(p.binds.GetOr(map[]))), kept.1);
      assert FindContainer(r.engine, p.name.value) == Ok(Some(c)) && c.running;
      Ok(r)
  }

  /**
   * `ensure_running_latest`: a container not running the image the reference
   * names locally is removed and recreated; one that does but fails the
   * compliance check is recreated too. Afterwards the name finds a running
   * container of the reference's local image. The image is not pulled when
   * already held, so "latest" means the latest held locally.
   */
  function EnsureRunningLatest(run: Run, p: Normalize.Params, id: string): (r: Result<Run>)
    ensures CheckRequired(p, [NameField, ImageField]).Some? ==> r == Err(CheckRequired(p, [NameField, ImageField]).value)
    ensures r.Ok? ==> (Normalize.Given(p.name) && Normalize.Given(p.image) && p.image.value in r.value.engine.images
      && exists c: Container :: FindContainer(r.value.engine, p.name.value) == Ok(Some(c)) && c.running
                     && c.imageId == r.value.engine.images[p.image.value])
    ensures KeptLatest(run.engine, p) ==> r == Ok(run)
    ensures r.Ok? ==> run.log <= r.value.log
    ensures r.Ok? && !KeptLatest(run.engine, p) ==> |r.value.log| > |run.log|
    ensures Normalize.Given(p.name) && Normalize.Given(p.image) && FindContainer(run.engine, p.name.value).Err? ==>
      r == Err(FindContainer(run.engine, p.name.value).error)
    ensures Normalize.Given(p.name) && Normalize.Given(p.image) && FindContainer(run.engine, p.name.value).Ok? ==>
      (r.Ok? <==> LatestSucceeds(run.engine, p, FindContainer(run.engine, p.name.value).value))
  {
    match CheckRequired(p, [NameField, ImageField])
    case Some(e) => Err(e)
    case None =>
      NameCheckedBeforeImage(p);
      var found :- FindContainer(run.engine, p.name.value);
      var kept :- LatestFrom(run, p, found, id);
      var r := StartIfStopped(kept.0, p, kept.1);
      var c := if kept.1.running then kept.1 else Apply(MarkStarted(RenderBinds(p.binds.GetOr(map[]))), kept.1);
      assert FindContainer(r.engine, p.name.value) == Ok(Some(c)) && c.running;
      Ok(r)
  }

  /** The branches of `ensure_running_latest` before the final start. */
  function LatestFrom(run: Run, p: Normalize.Params, found: Option<Container>, id: string): (r: Result<(Run, Container)>)
    requires Normalize.Given(p.name) && Normalize.Given(p.image)
    requires FindContainer(run.engine, p.name.value) == Ok(found)
    ensures r.Ok? ==> FindContainer(r.value.0.engine, p.name.value) == Ok(Some(r.value.1))
    ensures r.Ok? ==> p.image.value in r.value.0.engine.images
                      && r.value.1.imageId == r.value.0.engine.images[p.image.value]
    ensures r.Ok? && r.value.0 != run ==> r.value.1 == Created(p, id, r.value.0.engine.images[p.image.value])
    ensures r.Ok? ==> run.log <= r.value.0.log
    ensures r.Ok? ==> (r.value.0.log == run.log <==>
      found.Some? && IsRunningLatestImage(run.engine, found.value, p.image.value)
      && Compliance.EnsureSame(p, found.value) == Ok(true))
    ensures (found.Some? && IsRunningLatestImage(run.engine, found.value, p.image.value)
             && Compliance.EnsureSame(p, found.value) == Ok(true)) ==> r == Ok((run, found.value))
    ensures r.Ok? <==> LatestSucceeds(run.engine, p, found)
  {
    if found.None? then EnsurePresentFrom(run, p, None, id)
    else if !IsRunningLatestImage(run.engine, found.value, p.image.value) then
      var cleared :- RemoveContainer(run, found.value);
      RemoveContainerClears(run, found.value, p.name.value);
      CreateFresh(cleared, p, id)
    else
      var same :- Compliance.EnsureSame(p, found.value);
      if same then Ok((run, found.value))
      else
        var cleared :- EnsureAbsent(run, p);
        CreateFresh(cleared, p, id)
  }

  // ----------------------------------------------------------- stop, restart

  /** `ensure_stopped`: a missing container is an error; a running one is stopped. */
  function EnsureStopped(run: Run, p: Normalize.Params): (r: Result<Run>)
    ensures !Normalize.Given(p.name) ==> r == Err(MissingParameter("name"))
    ensures Normalize.Given(p.name) && FindContainer(run.engine, p.name.value) == Ok(None) ==> r == Err(ContainerNotFound)
    ensures r.Ok? ==> (Normalize.Given(p.name)
      && exists c: Container :: FindContainer(r.value.engine, p.name.value) == Ok(Some(c)) && !c.running)
    ensures r.Ok? ==> r.value.engine.images == run.engine.images
    ensures Normalize.Given(p.name) && FindContainer(run.engine, p.name.value).Ok?
            && FindContainer(run.engine, p.name.value).value.Some? ==>
      var c := FindContainer(run.engine, p.name.value).value.value;
      && (c.running ==> r.Ok? && r.value.log == run.log + [ChangeLog.Entry(ChangeLog.Stopped, c.id)])
      && (!c.running ==> r == Ok(run))
  {
    match CheckRequired(p, [NameField])
    case Some(e) => Err(e)
    case None =>
      var found :- FindContainer(run.engine, p.name.value);
      match found
      case None => Err(ContainerNotFound)
      case Some(c) =>
        if c.running then
          FindAfterUpdate(run.engine, p.name.value, c.id, MarkStopped);
          assert FindContainer(StopContainer(run, c).engine, p.name.value) == Ok(Some(Apply(MarkStopped, c)));
          Ok(StopContainer(run, c))
        else Ok(run)
  }

  /** A second `stopped` run changes nothing and logs nothing. */
  lemma StoppedIdempotent(run: Run, p: Normalize.Params)
    requires EnsureStopped(run, p).Ok?
    ensures EnsureStopped(EnsureStopped(run, p).value, p) == EnsureStopped(run, p)
  {
    var run1 := EnsureStopped(run, p).value;
    var c: Container :| FindContainer(run1.engine, p.name.value) == Ok(Some(c)) && !c.running;
  }

  /** `restart_container`: the container keeps running with its binds; the restart is logged. */
  function RestartContainer(run: Run, c: Container): (r: Run)
    ensures r.engine == run.engine
    ensures |r.log| == |run.log| + 1 && r.log[..|run.log|] == run.log
    ensures r.log[|run.log|] == ChangeLog.Entry(ChangeLog.Restarted, c.id)
  {
    Logged(run, run.engine, ChangeLog.Restarted, c.id)
  }

  /** `restart`: only a running container is restarted, with exactly one log entry. */
  function Restart(run: Run, p: Normalize.Params): (r: Result<Run>)
    ensures !Normalize.Given(p.name) ==> r == Err(MissingParameter("name"))
    ensures Normalize.Given(p.name) && FindContainer(run.engine, p.name.value) == Ok(None) ==> r == Err(ContainerNotFound)
    ensures (Normalize.Given(p.name) && FindContainer(run.engine, p.name.value).Ok?
             && FindContainer(run.engine, p.name.value).value.Some?
             && !FindContainer(run.engine, p.name.value).value.value.running) ==> r == Err(ContainerNotRunning)
    ensures (Normalize.Given(p.name) && FindContainer(run.engine, p.name.value).Ok?
             && FindContainer(run.engine, p.name.value).value.Some?
             && FindContainer(run.engine, p.name.value).value.value.running) ==> r.Ok?
    ensures r.Ok? ==> r.value.engine == run.engine
    ensures r.Ok? ==> exists c: Container :: FindContainer(run.engine, p.name.value) == Ok(Some(c)) && c.running
                                && r.value.log == run.log + [ChangeLog.Entry(ChangeLog.Restarted, c.id)]
  {
    match CheckRequired(p, [NameField])
    case Some(e) => Err(e)
    case None =>
      var found :- FindContainer(run.engine, p.name.value);
      match found
      case None => Err(ContainerNotFound)
      case Some(c) =>
        if !c.running then Err(ContainerNotRunning)
        else Ok(RestartContainer(run, c))
  }

  // ------------------------------------------------------------------ images

  /** `ensure_image_present`: afterwards the image is held; nothing happens if it already was. */
  function EnsureImagePresent(run: Run, p: Normalize.Params): (r: Result<Run>)
    ensures !Normalize.Given(p.image) ==> r == Err(MissingParameter("image"))
    ensures Normalize.Given(p.image) ==>
      (r.Ok? <==> p.image.value in run.engine.images || p.image.value in run.engine.registry)
    ensures Normalize.Given(p.image) && p.image.value in run.engine.images ==> r == Ok(run)
    ensures r.Ok? ==> Normalize.Given(p.image) && p.image.value in r.value.engine.images
                      && r.value.engine.containers == run.engine.containers
    ensures r.Ok? && p.image.value !in run.engine.images ==>
      r.value.log == run.log + [ChangeLog.Entry(ChangeLog.Pulled, r.value.engine.images[p.image.value])]
  {
    match CheckRequired(p, [ImageField])
    case Some(e) => Err(e)
    case None => EnsureImagePresentIn(run, p.image.value)
  }

  /** `ensure_image_latest`: always pulls; afterwards the image is the registry's, if it has one. */
  function EnsureImageLatest(run: Run, p: Normalize.Params): (r: Result<Run>)
    ensures !Normalize.Given(p.image) ==> r == Err(MissingParameter("image"))
    ensures Normalize.Given(p.image) ==>
      (r.Ok? <==> p.image.value in run.engine.images || p.image.value in run.engine.registry)
    ensures r.Ok? ==> Normalize.Given(p.image) && p.image.value in r.value.engine.images
    ensures r.Ok? && p.image.value in run.engine.registry ==>
      r.value.engine.images[p.image.value] == run.engine.registry[p.image.value]
    ensures r.Ok? ==> (r.value.log == run.log <==>
      p.image.value in run.engine.images && run.engine.images[p.image.value] == r.value.engine.images[p.image.value])
    ensures r.Ok? && r.value.log != run.log ==>
      r.value.log == run.log + [ChangeLog.Entry(ChangeLog.Pulled, r.value.engine.images[p.image.value])]
  {
    match CheckRequired(p, [ImageField])
    case Some(e) => Err(e)
    case None => PullImage(run, p.image.value)
  }

  /** `ensure_image_absent`: removes a held image, without logging it. */
  function EnsureImageAbsent(run: Run, p: Normalize.Params): (r: Result<Run>)
    ensures !Normalize.Given(p.image) ==> r == Err(MissingParameter("image"))
    ensures r.Ok? ==> Normalize.Given(p.image) && p.image.value !in r.value.engine.images
    ensures r.Ok? ==> r.value.log == run.log && r.value.engine.containers == run.engine.containers
    ensures r.Ok? ==> forall ref :: ref in run.engine.images && ref != p.image.value ==>
                        ref in r.value.engine.images && r.value.engine.images[ref] == run.engine.images[ref]
    ensures Normalize.Given(p.image) ==> r.Ok? && r.value.engine.images.Keys == run.engine.images.Keys - {p.image.value}
                                          && r.value.engine.registry == run.engine.registry
  {
    match CheckRequired(p, [ImageField])
    case Some(e) => Err(e)
    case None =>
      if FindImage(run.engine, p.image.value).Some? then Ok(Run(RemoveImage(run.engine, p.image.value), run.log))
      else Ok(run)
  }

  // ------------------------------------------------------------- idempotence

  /** After `running`, the name finds a running container that passes the compliance check. */
  lemma RunningLeavesCompliant(run: Run, p: Normalize.Params, id: string, entries: seq<string>)
    requires EnsureRunning(run, p, id).Ok?
    requires Compliance.SelfConsistentEnv(p, entries)
    ensures Normalize.Given(p.name)
    ensures exists c: Container :: FindContainer(EnsureRunning(run, p, id).value.engine, p.name.value) == Ok(Some(c))
                                   && c.running && Compliance.EnsureSame(p, c) == Ok(true)
  {
    NameCheckedBeforeImage(p);
    var found := FindContainer(run.engine, p.name.value).value;
    var kept := EnsurePresentFrom(run, p, found, id).value;
    var binds := RenderBinds(p.binds.GetOr(map[]));
    var c := if kept.1.running then kept.1 else Apply(MarkStarted(binds), kept.1);
    assert FindContainer(EnsureRunning(run, p, id).value.engine, p.name.value) == Ok(Some(c));
    if kept.0 == run {
      if !kept.1.running {
        assert c == kept.1.(running := true);
        Compliance.SameIgnoresRunning(p, kept.1, true);
      }
    } else {
      var imageId := kept.0.engine.images[p.image.value];
      assert c == Created(p, id, imageId).(binds := binds, running := true);
      Compliance.CreatedComplies(p, id, imageId, entries, true);
    }
  }

  /**
   * A second `running` run with the same parameters changes nothing and logs
   * nothing, whatever id the engine would give a new container.
   */
  lemma RunningIdempotent(run: Run, p: Normalize.Params, id: string, id2: string, entries: seq<string>)
    requires EnsureRunning(run, p, id).Ok?
    requires Compliance.SelfConsistentEnv(p, entries)
    ensures EnsureRunning(EnsureRunning(run, p, id).value, p, id2) == EnsureRunning(run, p, id)
  {
    var run1 := EnsureRunning(run, p, id).value;
    RunningLeavesCompliant(run, p, id, entries);
    var c: Container :| FindContainer(run1.engine, p.name.value) == Ok(Some(c))
                        && c.running && Compliance.EnsureSame(p, c) == Ok(true);
    NameCheckedBeforeImage(p);
    assert EnsurePresentFrom(run1, p, Some(c), id2) == Ok((run1, c));
  }

  /**
   * After `running_latest`, the name finds a running container of the
   * reference's local image that passes the compliance check.
   */
  lemma LatestLeavesCompliant(run: Run, p: Normalize.Params, id: string, entries: seq<string>)
    requires EnsureRunningLatest(run, p, id).Ok?
    requires Compliance.SelfConsistentEnv(p, entries)
    ensures KeptLatest(EnsureRunningLatest(run, p, id).value.engine, p)
  {
    NameCheckedBeforeImage(p);
    var found := FindContainer(run.engine, p.name.value).value;
    var kept := LatestFrom(run, p, found, id).value;
    var binds := RenderBinds(p.binds.GetOr(map[]));
    var c := if kept.1.running then kept.1 else Apply(MarkStarted(binds), kept.1);
    var r := EnsureRunningLatest(run, p, id).value;
    assert r == StartIfStopped(kept.0, p, kept.1);
    assert FindContainer(r.engine, p.name.value) == Ok(Some(c));
    assert c.imageId == kept.1.imageId && r.engine.images == kept.0.engine.images;
    if kept.0 == run {
      assert kept.0.log == run.log;
      if !kept.1.running {
        assert c == kept.1.(running := true);
        Compliance.SameIgnoresRunning(p, kept.1, true);
      }
    } else {
      var imageId := kept.0.engine.images[p.image.value];
      assert c == Created(p, id, imageId).(binds := binds, running := true);
      Compliance.CreatedComplies(p, id, imageId, entries, true);
    }
  }

  /**
   * A second `running_latest` run with the same parameters changes nothing
   * and logs nothing.
   */
  lemma RunningLatestIdempotent(run: Run, p: Normalize.Params, id: string, id2: string, entries: seq<string>)
    requires EnsureRunningLatest(run, p, id).Ok?
    requires Compliance.SelfConsistentEnv(p, entries)
    ensures EnsureRunningLatest(EnsureRunningLatest(run, p, id).value, p, id2) == EnsureRunningLatest(run, p, id)
  {
    LatestLeavesCompliant(run, p, id, entries);
  }

  /**
   * Without volumes, a second `present` run with the same parameters changes
   * nothing: the container it created, never started, reports no binds,
   * which is what the parameters ask for.
   */
  lemma PresentIdempotentWithoutVolumes(run: Run, p: Normalize.Params, id: string, id2: string, entries: seq<string>)
    requires EnsurePresent(run, p, id).Ok?
    requires p.binds.None?
    requires Compliance.SelfConsistentEnv(p, entries)
    ensures EnsurePresent(EnsurePresent(run, p, id).value, p, id2) == EnsurePresent(run, p, id)
  {
    NameCheckedBeforeImage(p);
    var run1 := EnsurePresent(run, p, id).value;
    var found := FindContainer(run.engine, p.name.value).value;
    var kept := EnsurePresentFrom(run, p, found, id).value;
    var c := kept.1;
    assert FindContainer(run1.engine, p.name.value) == Ok(Some(c));
    if kept.0 != run {
      var imageId := kept.0.engine.images[p.image.value];
      Compliance.NoBindsRenderEmpty();
      assert c == Created(p, id, imageId).(binds := RenderBinds(p.binds.GetOr(map[])), running := false);
      Compliance.CreatedComplies(p, id, imageId, entries, false);
    }
    assert EnsurePresentFrom(run1, p, Some(c), id2) == Ok((run1, c));
  }

  // ---------------------------------------------------------------- the module

  /** The `state` parameter. `image_absent` has a recipe but is not among the accepted choices. */
  datatype Goal =
    | Present | Running | RunningLatest | Stopped | Absent | Restarted
    | ImagePresent | ImageLatest | ImageAbsent

  /** What the module reports: `exit_json(changed, msg)` or `fail_json(msg)`. */
  datatype Outcome = Exit(changed: bool, msg: ChangeLog.Message) | Fail(error: Failure)

  /** The recipe `main` dispatches to. `absent` is the recipe as written. */
  function Dispatch(goal: Goal, run: Run, p: Normalize.Params, id: string): Result<Run>
  {
    match goal
    case Present => EnsurePresent(run, p, id)
    case Running => EnsureRunning(run, p, id)
    case RunningLatest => EnsureRunningLatest(run, p, id)
    case Stopped => EnsureStopped(run, p)
    case Absent => EnsureAbsentAsWritten(run, p)
    case Restarted => Restart(run, p)
    case ImagePresent => EnsureImagePresent(run, p)
    case ImageLatest => EnsureImageLatest(run, p)
    case ImageAbsent => EnsureImageAbsent(run, p)
  }

  /**
   * `exit_json(changed=has_changes(), msg=generate_message())` after a recipe
   * that finished, `fail_json` with the failure of one that raised.
   */
  function Report(d: Result<Run>): (o: Outcome)
    ensures d.Err? ==> o == Fail(d.error)
    ensures d.Ok? ==> o.Exit? && (o.changed <==> |d.value.log| > 0) && (o.changed ==> o.msg == ChangeLog.Changes(d.value.log))
    ensures o.Exit? ==> (o.changed <==> o.msg != ChangeLog.UpToDate)
  {
    match d
    case Err(e) => Fail(e)
    case Ok(run) => Exit(ChangeLog.HasChanges(run.log), ChangeLog.GenerateMessage(run.log))
  }

  /**
   * `main`: a state outside the choices is refused before anything runs; the
   * parameters are normalised; the recipe runs from an empty log; the module
   * reports whether anything was logged and either the log or the
   * "up to date" message, or the first failure.
   */
  function RunModule(goal: Goal, raw: Normalize.RawParams, engine: State, id: string): (o: Outcome)
    ensures goal == ImageAbsent ==> o == Fail(InvalidArgument("state"))
    ensures goal != ImageAbsent && Normalize.FixParameters(raw).Err? ==> o == Fail(Normalize.FixParameters(raw).error)
    ensures goal != ImageAbsent && Normalize.FixParameters(raw).Ok? ==>
      o == Report(Dispatch(goal, Run(engine, []), Normalize.FixParameters(raw).value, id))
    ensures o.Exit? ==> (o.changed <==> o.msg != ChangeLog.UpToDate)
    ensures o.Exit? && o.changed ==> |o.msg.log| > 0
  {
    if goal == ImageAbsent then Fail(InvalidArgument("state"))
    else
      match Normalize.FixParameters(raw)
      case Err(e) => Fail(e)
      case Ok(p) =>
        Report(Dispatch(goal, Run(engine, []), p, id))
  }

  /**
   * Running the module with `running` a second time, against the engine the
   * first run left, reports "up to date" and no change, when the environment
   * was normalised from entries that neither mention the marker nor hold `:`
   * in a key.
   */
  lemma ModuleRunningSettles(raw: Normalize.RawParams, engine: State, id: string, id2: string, entries: seq<string>)
    requires Normalize.FixParameters(raw).Ok?
    requires EnsureRunning(Run(engine, []), Normalize.FixParameters(raw).value, id).Ok?
    requires Compliance.SelfConsistentEnv(Normalize.FixParameters(raw).value, entries)
    ensures var engine1 := EnsureRunning(Run(engine, []), Normalize.FixParameters(raw).value, id).value.engine;
      RunModule(Running, raw, engine1, id2) == Exit(false, ChangeLog.UpToDate)
  {
    var p := Normalize.FixParameters(raw).value;
    var engine1 := EnsureRunning(Run(engine, []), p, id).value.engine;
    RunningLeavesCompliant(Run(engine, []), p, id, entries);
    var c: Container :| FindContainer(engine1, p.name.value) == Ok(Some(c))
                        && c.running && Compliance.EnsureSame(p, c) == Ok(true);
    NameCheckedBeforeImage(p);
    assert EnsurePresentFrom(Run(engine1, []), p, Some(c), id2) == Ok((Run(engine1, []), c));
    assert EnsureRunning(Run(engine1, []), p, id2) == Ok(Run(engine1, []));
  }
}

=== FILE: results.dfy ===
/**
 * Optional values, results, and the failures the container manager reports.
 *
 * The source signals failure by raising exceptions; here every operation that
 * can fail returns a `Result`, and `Failure` names which exception it was.
 */
module Results {

  datatype Option<+T> = None | Some(value: T) {
    function GetOr(default: T): T {
      match this
      case Some(v) => v
      case None => default
    }
  }

  /** Why an invocation stopped. */
  datatype Failure =
    | InvalidArgument(param: string)   // a malformed volume, port or env parameter
    | MissingParameter(param: string)  // a parameter the requested state needs is unset or empty
    | AmbiguousContainer               // more than one container matches the name or id
    | ContainerNotFound
    | ContainerNotRunning
    | CouldNotRemove                   // the container is still found after removal
    | ImageNotFound(image: string)     // the image is still missing after a pull
    | EngineError(reason: string)      // the container engine refused a call
    | Crash(reason: string)            // a Python exception the module does not catch

  datatype Result<+T> = Ok(value: T) | Err(error: Failure) {
    predicate IsFailure() {
      Err?
    }

    function PropagateFailure<U>(): Result<U>
      requires Err?
    {
      Err(error)
    }

    function Extract(): T
      requires Ok?
    {
      value
    }
  }
}
